=== FILE: README.md ===
# peepbird, modelled in Dafny

peepbird prints the total number of unread messages in one or more Thunderbird
mailbox summary files (`.msf`, a Mork key/value log). For each file it takes
the value of the **last** `(^A2=` cell as a hexadecimal number. A missing,
unclosed or malformed value counts as 0. It adds the counts as a `u32` and
prints the total between optional `before` and `after` text.

The settings come in three layers, each one overriding the last field by field:
1. `Settings::default()`, with only `config` set to the resolved configuration
   file path.
2. The TOML configuration file.
3. The command line.

Input files are then taken relative to the Thunderbird profile directory. The
profile is either given, or it is the first `Path=` entry of
`~/.thunderbird/profiles.ini`. A mailbox given as a directory is replaced by its
`Inbox.msf` or `INBOX.msf`. With `dump_config` the merged settings are printed
in TOML-like form instead of counting.

This project models `src/main.rs` as pure functions. The file system is an
oracle record (`Paths.FileSystem`):
- `canonical`: `fullpath`, that is tilde expansion plus `canonicalize`.
- `read`: `fs::read_to_string`.
- `isDir` and `isFile`.

The TOML reader is an oracle function (`App.Toml`). A run's observable result is
`Report.Exit`: the text written to standard output and the error the run ends
with, if any.

Modules, in dependency order:

| file | module | models |
|---|---|---|
| wrappers.dfy | `Wrappers` | `Option`, `Result` |
| text.dfy | `Text` | `str::find`/`rfind`, `split_once`/`rsplit_once`, `str::trim` (Unicode `White_Space`) |
| radix.dfy | `Radix` | `u32::from_str_radix(_, 16)`, hexadecimal and decimal numerals |
| paths.dfy | `Paths` | `Path::join`/`PathBuf::push` on Unix, the file-system oracle |
| errors.dfy | `Errors` | the errors a run can end with |
| mork.dfy | `Mork` | `mailbox_count_unread` |
| profiles.dfy | `Profiles` | `find_default_thunderbird_profile` |
| config.dfy | `Config` | `Settings`, `Arguments`, `update_settings_from`, `update_settings_from_arguments` |
| resolve.dfy | `Resolve` | `update_relative_files_with_profile`, `update_directory_files_with_default_filename` |
| dump.dfy | `Dump` | `impl Display for Settings`, and a reader that parses the dump back |
| report.dfy | `Report` | the counting loop and the output assembly of `main` |
| app.dfy | `App` | `App::new`, `parse_config`, and the whole of `main` |

Behaviours of the program worth knowing, all of them modelled:
- **Profile errors.** Finding the default profile can fail in three distinct ways, each its own error:
  - `profiles.ini` does not resolve;
  - it cannot be read;
  - it has no usable `Path=` value.

  An explicitly given profile that does not resolve is a fourth error, naming that path.
- **Empty file list.** "No input files" is raised only when `files` is unset. An empty list, such as `files = []` in the configuration file, passes and prints a total of 0.
- **Files that do not resolve.** A file that does not resolve under the profile is not made absolute. The empty path is pushed onto it, which at most adds a trailing `/`.
- **Directories given relatively.** A directory entry that is still relative when it is expanded gets the probed path `dir/Inbox.msf` pushed onto itself, giving `dir/dir/Inbox.msf` (see Findings).
- **Location lines before an error.** Location lines already printed for earlier files stay on standard output when a later mailbox cannot be read.
- **Profile in the dump.** When `profile` is unset, the dump shows the discovered default profile, and the empty string only when there is none.
- **Dump on a configuration-file error.** Only `--dump-config` on the command line causes a dump before a configuration-file error. A `dump_config` in the file does cause a dump before a profile or file-list error.

## Model

| member | source | states |
|---|---|---|
| Text.SplitOnce | src/main.rs:31-33 | `split_once` finds nothing exactly when the pattern is absent; otherwise the text is head + pattern + tail, with no earlier occurrence of the pattern |
| Text.RSplitOnce | src/main.rs:28-30 | `rsplit_once` finds nothing exactly when the pattern is absent; otherwise the text is head + pattern + tail, with no later occurrence of the pattern |
| Text.SplitOnceAtChar | src/main.rs:55-57 | splitting at a character splits at its first occurrence |
| Text.Trim | src/main.rs:524-527 | the trimmed text has no white space at either end, and is the input minus its leading white space and a white-space suffix |
| Text.TrimPadded | src/main.rs:524-527 | trimming text padded with white space on both sides recovers the text inside |
| Radix.ParseHexU32 | src/main.rs:25-36 | a parsed value fits in a `u32`, and the token it came from is neither empty nor a bare `+`, with a hexadecimal digit at every position after the first |
| Radix.ParseHexU32Exact | src/main.rs:25-36 | parsing succeeds exactly when the digits after an optional leading `+` are a non-empty hexadecimal run worth at most `u32::MAX`, and then yields their value |
| Radix.ParseHexRoundTrip | src/main.rs:25-36 | every `u32` written in hexadecimal, with or without a leading `+`, parses back to itself |
| Radix.ParseHexRejectsNonDigit | src/main.rs:25-36 | a token with a character that is not a hexadecimal digit after its optional `+` does not parse, so `Z`, `-5` and `+Z` count 0 |
| Radix.ParseHexRejectsOverflow | src/main.rs:25-36 | a hexadecimal token above `u32::MAX`, with or without a leading `+`, does not parse, so it counts 0 |
| Radix.HexValueLeadingZero | src/main.rs:25-36 | leading zeros do not change the value of a hexadecimal token |
| Radix.Decimal | src/main.rs:511-522 | `to_string` of a count is a non-empty string of decimal digits without a leading zero |
| Radix.DecimalRoundTrip | src/main.rs:511 | the decimal numeral printed for a count reads back as that count |
| Radix.DecimalInjective | src/main.rs:522 | different totals print as different numerals |
| Paths.Join | src/main.rs:232-233 | an absolute path replaces the base; otherwise the result is the base, a `/` exactly when the base is non-empty and does not end in one, then the path |
| Paths.JoinKeepsAbsolute | src/main.rs:232 | joining onto an absolute directory stays absolute |
| Paths.JoinEmpty | src/main.rs:233 | pushing the empty path adds a trailing `/` unless there is already one |
| Mork.CountUnread | src/main.rs:21-39 | the count fits in a `u32`, and it is non-zero only if the text contains the unread marker |
| Mork.MailboxCountUnread | src/main.rs:21-27 | the count fails exactly when the file cannot be read, with an error naming it |
| Mork.UnreadToken | src/main.rs:28-33 | the value token never contains the closing parenthesis |
| Mork.CountUnreadWithoutMarker | src/main.rs:28-30 | text without the marker counts 0 |
| Mork.CountUnreadOfLastCell | src/main.rs:25-36 | when no marker starts after the last one, the count is the parse of the token up to the next `)`, or 0 when that token does not parse |
| Mork.CountUnreadLastWins | src/main.rs:16-36 | whatever comes before, the last `(^A2=<hex n>)` cell gives the count n |
| Mork.HexCellAbsent | src/main.rs:28-33 | a hexadecimal numeral and its `)` cannot contain the marker, so a cell written that way is the last one when no marker follows |
| Mork.CountUnreadUnclosed | src/main.rs:31-36 | a last marker with no closing parenthesis after it counts 0 |
| Mork.CountUnreadExample | src/main.rs:16-36 | `...(^A2=A)...(^A2=1F)...` counts 31 |
| Profiles.DefaultProfileName | src/main.rs:51-62 | a profile name found is non-empty and contains no line break, and `Path=` occurs in the document; otherwise the error is "no default profile" |
| Profiles.FirstPathKey | src/main.rs:52 | the first `Path=` is found even when later ones follow |
| Profiles.DefaultProfileNameFound | src/main.rs:51-64 | the value of the first `Path=` entry, up to the line break, is the profile name |
| Profiles.DefaultProfileNameMissing | src/main.rs:52-62 | without `Path=` there is no default profile |
| Profiles.DefaultProfileNameUnusable | src/main.rs:55-62 | an empty first `Path=` value, or one with no line break after it, gives no default profile |
| Profiles.FindDefaultProfile | src/main.rs:46-71 | an unresolvable `profiles.ini` is its own error; an unreadable one is the read error naming its path; every failure is a profile error; a success needs a readable `profiles.ini` with a usable `Path=` value and is `~/.thunderbird` joined with a non-empty, single-line name |
| Profiles.FindDefaultProfileUnusable | src/main.rs:51-62 | a readable `profiles.ini` without a usable first `Path=` value gives "no default profile", never an invented profile |
| Profiles.FindDefaultProfileFromIni | src/main.rs:46-64 | with a readable `profiles.ini` whose first entry is `Path=<name>`, the profile is `~/.thunderbird/<name>` |
| Config.UpdateFrom | src/main.rs:127-158 | every field but `config` takes the configuration file's value when it has one and keeps the current value otherwise; `config` is never taken from the file |
| Config.ArgumentOverlay | src/main.rs:164-202 | the command line as a sparse settings record holds exactly the fields the command line gives |
| Config.UpdateFromArguments | src/main.rs:164-202 | each field given on the command line replaces the current value; a switch already on stays on, and a switch can only be turned on |
| Config.UpdateFromIdempotent | src/main.rs:127-158 | applying the same configuration twice changes nothing more |
| Config.UpdateFromComposes | src/main.rs:127-158 | two overlays in a row equal one overlay made of both, with the later one winning |
| Config.UpdateFromUnsetIsIdentity | src/main.rs:127-158 | an empty configuration changes nothing |
| Config.Merge | src/main.rs:462-478 | `config` keeps its initial value; a field given on the command line has that value; otherwise a field the file sets has the file's value |
| Config.MergeArgumentsWin | src/main.rs:462-478 | a field given on the command line has the command line's value, whatever the file and defaults hold |
| Config.MergeFileWins | src/main.rs:462-478 | a field the command line leaves alone but the file sets has the file's value |
| Config.MergeFallsBack | src/main.rs:462-478 | a field set in neither upper layer keeps its default |
| Resolve.ResolveProfile | src/main.rs:208-222 | a given profile must resolve, or the run fails naming it; otherwise the discovered default is used as it is, unresolved |
| Resolve.Anchor | src/main.rs:232-233 | an entry that resolves under the profile to an absolute path becomes that path; an entry that does not resolve is kept, with at most a `/` added |
| Resolve.UpdateRelativeFiles | src/main.rs:207-243 | a profile error comes before a missing file list; an empty file list is not an error; success iff the profile resolves and `files` is set; only `files` changes; length and order are kept; each entry is anchored at the profile |
| Resolve.UpdateRelativeFilesResolvesEntries | src/main.rs:230-233 | an entry that resolves under the profile is absolute afterwards |
| Resolve.AnchorTwice | src/main.rs:230-233 | anchoring an anchored entry again changes nothing |
| Resolve.UpdateRelativeFilesIdempotent | src/main.rs:207-243 | resolving the same profile and files a second time gives the same settings |
| Resolve.ExpandDirectory | src/main.rs:249-268 | only a directory is replaced, and only by an existing regular file; `Inbox.msf` is preferred over `INBOX.msf`; a directory holding either is replaced |
| Resolve.ExpandDirectoryAsWritten | src/main.rs:255-265 | a non-directory is kept; otherwise the result is the directory with the existing inbox file pushed onto it, which for an absolute directory is that inbox file |
| Resolve.ExpandDirectoryAsWrittenDoublesRelative | src/main.rs:256-264 | the relative directory `Mail/x/` holding `Inbox.msf` becomes the missing file `Mail/x/Mail/x/Inbox.msf`; the corrected step gives `Mail/x/Inbox.msf` |
| Resolve.ExpandDirectories | src/main.rs:250-267 | expansion keeps length and order and treats each entry on its own, as the source's step does |
| Resolve.UpdateDirectoryFiles | src/main.rs:249-268 | only `files` changes; length is kept; non-directories are kept; a directory holding `Inbox.msf` or `INBOX.msf` gets the found inbox path pushed onto it, and no other entry changes; an absolute directory becomes exactly that inbox file |
| Dump.Render | src/main.rs:387-392 | the dump starts with `files = [` |
| Dump.ReadQuotedRoundTrip | src/main.rs:403 | a quoted value without `"` reads back as itself |
| Dump.ReadScalarRoundTrip | src/main.rs:423-446 | a rendered value reads back as itself |
| Dump.ReadEntriesRoundTrip | src/main.rs:408-446 | the `key = value` lines read back as the values, in key order |
| Dump.ReadFileLinesStep | src/main.rs:402-404 | one file line in front adds that file to the front of what is read |
| Dump.ReadFileLinesRoundTrip | src/main.rs:401-406 | the multi-line file list reads back as the files |
| Dump.ReadFileListRoundTrip | src/main.rs:393-406 | the file list reads back in each of its three shapes, and the reader accepts each shape only for its own count: `]` for no file, `"x"]` for one, indented lines for two or more |
| Dump.ShownUnquoted | src/main.rs:408-440 | the quoted values are exactly profile, config, before and after |
| Dump.DumpRoundTrip | src/main.rs:387-449 | reading a dump back gives the files and, in key order, the profile or its fallback and every other value, unset ones as `""` or `false` |
| Report.WrappingAdd | src/main.rs:506 | `total_count += count` is addition modulo 2^32 and exact while there is no overflow |
| Report.WrappingSum | src/main.rs:500-506 | the running total always fits in a `u32` |
| Report.WrappingSumModulo | src/main.rs:500-506 | however often it wraps, the running total is the true sum of the counts modulo 2^32 |
| Report.WrappingSumExact | src/main.rs:500-506 | while the true sum fits in a `u32` the running total is the true sum |
| Report.LeadingReadable | src/main.rs:503-505 | the files counted are the leading readable ones, up to the first unreadable one |
| Report.FileCount | src/main.rs:505 | a readable file's count fits in a `u32` |
| Report.CountsOf | src/main.rs:503-506 | one count per file, in list order, each that file's unread count |
| Report.ShowsLocation | src/main.rs:507-511 | no location line without `location`; with it, a line for every file with unread mail, and for a file without unread mail exactly when `no_zero` is off |
| Report.LocationLineParts | src/main.rs:511 | a location line is the count in decimal without leading zeros, a space, the path and a newline |
| Report.LocationLinesEmpty | src/main.rs:503-512 | the location lines are empty exactly when no file's line is shown, so with `location` off nothing is printed per file |
| Report.LocationLinesOff | src/main.rs:507 | with `location` off no file's location line is printed, whatever the counts, so the output is only what follows the loop |
| Report.ZeroCountsHidden | src/main.rs:507-511 | with `no_zero` set, files without unread mail print no location line, whether or not `location` is set |
| Report.CountStart | src/main.rs:500 | before any file is read the total is 0 and no location line has been printed |
| Report.CountsOfSnoc | src/main.rs:504-505 | the counts of one more file are the earlier counts followed by that file's count |
| Report.CountStep | src/main.rs:504-512 | one more file adds its count to the total and at most its own location line |
| Report.CountMailboxes | src/main.rs:500-514 | the loop's total is the wrapped sum of the counts of the files read; its location lines are those files' lines in order; it stops at the first unreadable file, naming it |
| Report.CountText | src/main.rs:519-523 | the count text is empty exactly when `no_zero` is set and the total is 0; otherwise it is the decimal numeral of the total, without leading zeros |
| Report.FramedParts | src/main.rs:516-523 | the text is `before`, then the total's decimal numeral or nothing when `no_zero` is set and the total is 0, then `after` |
| Report.TotalText | src/main.rs:516-531 | without `trim` the text is before + count + after; with `trim` it is that text minus surrounding white space |
| Report.TotalLine | src/main.rs:533-537 | a newline follows the total text unless `no_newline` is set |
| Report.Report | src/main.rs:500-537 | the run fails exactly when some file cannot be read, with a mailbox error; what was printed by then stays: the location lines of the readable files before it |
| Report.ReportAllReadable | src/main.rs:500-537 | when every file can be read, the output is the location lines followed by the total line |
| Report.ExampleTotalLine | src/main.rs:516-537 | the total 15 framed by `Unread: ` and ` msgs` prints `Unread: 15 msgs` and a newline |
| Report.ExampleCells | src/main.rs:21-39 | the cells `(^A2=A)` and `(^A2=5)` count 10 and 5 |
| Report.TwoFileTotal | src/main.rs:503-506 | the total of two readable mailboxes is the `u32` sum of their two counts |
| Report.ReportQuiet | src/main.rs:500-537 | with `location` off and every file readable, the whole output is the total line for the `u32` sum of the counts |
| Report.ReportTwoFiles | src/main.rs:500-537 | two readable mailboxes with `location` off print only the total line for the `u32` sum of their two counts |
| Report.ExampleFileCounts | src/main.rs:21-39 | mailboxes whose text is `(^A2=A)` and `(^A2=5)` count 10 and 5 |
| Report.ReportExample | src/main.rs:500-537 | two mailboxes holding `A` and `5` unread messages print `Unread: 15 msgs` and a newline |
| Report.ZeroTotalLine | src/main.rs:516-537 | with `no_zero`, no framing text and a zero total, the total line is a bare newline, or nothing with `no_newline` |
| Report.ReportAllZero | src/main.rs:500-537 | with `no_zero` and no unread mail anywhere the whole output is a bare newline, or nothing with `no_newline`, whether or not `location` is set |
| Report.AllZeroParts | src/main.rs:500-512 | when every mailbox counts 0, the total is 0 and, with `no_zero`, no location line is printed |
| Report.AllZeroSum | src/main.rs:500-506 | all-zero counts sum to 0 |
| App.InitialSettings | src/main.rs:93-110 | all settings unset except `config`, the resolved `--config` path or `~/.config/peepbird/options.toml` |
| App.ParseConfig | src/main.rs:114-123 | no resolved configuration file is not an error; an unreadable one or one that does not parse is, with the path or parser message |
| App.LoadConfig | src/main.rs:462-476 | `--no-config` skips the file and its errors; otherwise the file's settings overlay the initial ones |
| App.DumpText | src/main.rs:471 | the printed dump starts with `files = [` and ends with a newline |
| App.DumpTextRoundTrip | src/main.rs:387-449 | the printed dump, without its newline, reads back as the files and every shown value; an unset profile shows as the discovered default profile, or as the empty path when there is none |
| App.Dumping | src/main.rs:483 | a dump is asked for exactly when `dump_config` is set to true; unset means no dump |
| App.Finish | src/main.rs:478-498 | when the settings after the command line ask for a dump, whichever layer set `dump_config`, a dump is printed and no mailbox error occurs; the later stages never raise a configuration error; "no input files" needs an empty file argument list; a profile or file-list error comes with the dump exactly when the settings after the command line ask for one |
| App.Run | src/main.rs:459-498 | `--dump-config` always produces a dump and no mailbox error; a configuration error needs the configuration stage to run on a resolved path, and prints output exactly when `--dump-config` is given; "no input files" needs an empty file argument list |
| App.LoadThenArgumentsIsMerge | src/main.rs:462-478 | loading the configuration file and then applying the command line gives `Config.Merge` of the initial settings, the file's layer and the command line |
| App.ConfigLayer | src/main.rs:462-468 | the file's layer exists only when `--no-config` is absent and a configuration file resolved, and then it is what the TOML reader made of that readable file |
| App.RunDumpsMerged | src/main.rs:462-498 | when the configuration loads and the merged settings set `dump_config`, from the file or the command line, the run prints the dump instead of counting and reads no mailbox |
| App.RunDumpsOnSetupError | src/main.rs:478-487 | a run that ends with a profile or file-list error printed the dump exactly when the merged settings set `dump_config`, whether it came from the file or the command line |
| App.RunProfileFailureDumps | src/main.rs:480-486 | `dump_config = true` in the configuration file dumps the settings before an unresolvable profile's error |
| App.RunProfilesIniMissing | src/main.rs:46-48 | with no profile given and no `profiles.ini`, the run ends with that error and prints output exactly when a dump is requested |
| App.RunExample | src/main.rs:459-537 | the command line `-C -p /p -b "Unread: " -a " msgs" /a.msf /b.msf`, with the mailboxes holding `A` and `5`, prints `Unread: 15 msgs` and a newline |
| App.RelativeDirectoryAnchored | src/main.rs:230-233 | under the profile `/p`, the unresolved entry `Mail/x` becomes `Mail/x/` |
| App.RelativeDirectoryExpanded | src/main.rs:255-260 | expanding `Mail/x/`, a directory holding `Inbox.msf`, gives `Mail/x/Mail/x/Inbox.msf` |
| App.RunRelativeDirectory | src/main.rs:459-537 | `--no-config -p /p Mail/x`, where only `Mail/x/Inbox.msf` exists, ends with the error that `Mail/x/Mail/x/Inbox.msf` cannot be read and prints nothing |

## Left out

- Command-line parsing (`clap`) is left out. `Config.Arguments` is the parsed result, with switches as booleans and an empty list for no files.
- The TOML reader (`toml::from_str`) is left out. It is the oracle `App.Toml`, which returns the settings or an error message.
- Tilde expansion and `canonicalize` are not modelled. They form the oracle `FileSystem.canonical`. Lemmas that need real behaviour say so: `Resolves` (results are absolute) and `Settled` (results resolve to themselves).
- File reads, `is_dir` and `is_file` are oracle functions. The working directory, symlinks, I/O errors and races between the checks and the reads are not modelled.
- Rust strings are UTF-8 bytes; the model uses sequences of Unicode scalar values. `read_to_string`'s failure on invalid UTF-8 is part of the `read` oracle returning `None`.
- Error messages are not modelled. `anyhow` context text, the `Error:` line on standard error and the exit status are reduced to an `Errors.Error` value.
- Report.WrappingAdd: models the release build's `u32` wrap-around. A debug build would panic on overflow instead.
- Dump.DumpRoundTrip: holds only when no shown string contains `"`. The dump does not escape quotes, so such a value cannot be read back.
- Resolve.UpdateDirectoryFiles: requires `files` to be set, as the source's `unwrap` does. It is only reached after `Resolve.UpdateRelativeFiles` succeeded. It promises that a replaced entry is an existing inbox file only for absolute entries. A relative directory gets its inbox path pushed onto itself, which names a different file (see Findings).
- Radix.ParseHexU32: its own contract states the `u32` bound and the shape of an accepted token, but not the value. The exact accepted tokens and the value are stated by `Radix.ParseHexU32Exact`, so that proofs about counts do not carry the digit quantifiers.
- Report.WrappingSum: its own contract states only the `u32` bound. The relation to the true sum is stated by `Report.WrappingSumModulo` and `Report.WrappingSumExact`.
- The `Could not find a profile.` branch (src/main.rs:240-242) is not modelled as a separate case. The profile there is always present, so the branch cannot be taken.
- The model does not print. Standard output is the string `Report.Exit.stdout`, in the order `main` writes it.

## Findings

| source | as written | input that shows it | evidently intended | confidence | as-written member | corrected member |
|---|---|---|---|---|---|---|
| src/main.rs:256-264 | `f.push(f.join("Inbox.msf"))` pushes the already joined path onto `f`, and `f.push(f.join("INBOX.msf"))` likewise. For a relative `f` this appends `f` a second time. | The entry `Mail/x/` is a directory relative to the working directory holding `Inbox.msf`, and it did not resolve under the profile. It becomes `Mail/x/Mail/x/Inbox.msf`, which does not exist. | `f.push("Inbox.msf")`, giving `Mail/x/Inbox.msf` | medium, not executed: it is reachable only for entries that did not resolve under the profile | Resolve.ExpandDirectoryAsWritten, Resolve.ExpandDirectoryAsWrittenDoublesRelative, App.RunRelativeDirectory | Resolve.ExpandDirectory |

The model of `main` (`Resolve.UpdateDirectoryFiles`, `App.Run`) follows the
step as written, so `App.RunRelativeDirectory` ends with a mailbox read error.
`Resolve.ExpandDirectory` is the corrected step, `f.push("Inbox.msf")`, and is
proved to pick an existing inbox file, preferring `Inbox.msf`. For absolute
entries the two steps agree (`Resolve.ExpandDirectoryAsWritten`).

=== FILE: app.dfy ===
/**
 * The whole run of `main`: the initial settings, the configuration file,
 * the command line, profile anchoring and directory expansion, then either
 * the settings dump or the count report. Errors end the run; on the way out
 * the settings are dumped when asked for.
 */
module App {
  import opened Wrappers
  import opened Paths
  import opened Errors
  import opened Config
  import opened Profiles
  import opened Resolve
  import opened Dump
  import opened Report

  /** `~/.config/{CARGO_PKG_NAME}/options.toml` for the package `peepbird`. */
  const DefaultConfig: string := "~/.config/peepbird/options.toml"

  /**
   * The TOML reader for the configuration file, given as an oracle: a
   * settings record (or none) for a well-formed document, or its message.
   */
  type Toml = string -> Result<Option<Settings>, string>

  /** `App::new`: all settings unset except `config`, the resolved path of the chosen configuration file. */
  function InitialSettings(a: Arguments, fs: FileSystem): (s: Settings)
    ensures s == Unset.(config := s.config)
    ensures a.config.Some? ==> s.config == fs.canonical(a.config.value)
    ensures a.config.None? ==> s.config == fs.canonical(DefaultConfig)
  {
    Unset.(config := fs.canonical(a.config.GetOr(DefaultConfig)))
  }

  /**
   * `parse_config`: no configuration file (it did not resolve) is not an
   * error; one that cannot be read, or does not parse, is.
   */
  function ParseConfig(s: Settings, fs: FileSystem, toml: Toml): (r: Result<Option<Settings>, Error>)
    ensures s.config.None? ==> r == Success(None)
    ensures r.Failure? <==> s.config.Some? && (fs.read(s.config.value).None? || toml(fs.read(s.config.value).value).Failure?)
    ensures r.Failure? && fs.read(s.config.value).None? ==> r.error == ConfigUnreadable(s.config.value)
    ensures r.Failure? && fs.read(s.config.value).Some? ==> r.error == ConfigMalformed(toml(fs.read(s.config.value).value).error)
    ensures r.Success? && s.config.Some? ==> r.value == toml(fs.read(s.config.value).value).value
  {
    match s.config
    case None => Success(None)
    case Some(path) =>
      match fs.read(path)
      case None => Failure(ConfigUnreadable(path))
      case Some(doc) =>
        match toml(doc)
        case Failure(message) => Failure(ConfigMalformed(message))
        case Success(cfg) => Success(cfg)
  }

  /** The configuration stage: skipped with `--no-config`, otherwise the file's settings overlay `s`. */
  function LoadConfig(a: Arguments, s: Settings, fs: FileSystem, toml: Toml): (r: Result<Settings, Error>)
    ensures a.noConfig ==> r == Success(s)
    ensures r.Failure? <==> !a.noConfig && ParseConfig(s, fs, toml).Failure?
    ensures r.Failure? ==> r.error.ConfigUnreadable? || r.error.ConfigMalformed?
    ensures r.Success? && !a.noConfig ==> r.value == UpdateFrom(s, ParseConfig(s, fs, toml).value.GetOr(Unset))
  {
    if a.noConfig then Success(s)
    else
      var cfg :- ParseConfig(s, fs, toml);
      match cfg
      case None => UpdateFromUnsetIsIdentity(s); Success(s)
      case Some(c) => Success(UpdateFrom(s, c))
  }

  /** `println!("{}", app.settings)`: the dump and its newline. */
  function DumpText(s: Settings, fs: FileSystem): (r: string)
    ensures |r| > 9 && r[..9] == "files = [" && r[|r| - 1] == '\n'
  {
    var d := Render(s, FindDefaultProfile(fs));
    assert (d + "\n")[..|d|] == d;
    d + "\n"
  }

  /**
   * The printed dump, minus its newline, reads back as the files and the
   * shown values; in particular an unset profile is shown as the discovered
   * default profile, or as the empty path when there is none.
   */
  lemma DumpTextRoundTrip(s: Settings, fs: FileSystem)
    requires AllUnquoted(s.files.GetOr([]))
    requires Unquoted(s.profile.GetOr(FindDefaultProfile(fs).GetOr(""))) && Unquoted(s.config.GetOr(""))
    requires Unquoted(s.before.GetOr("")) && Unquoted(s.after.GetOr(""))
    ensures var r := DumpText(s, fs);
      && ReadDump(r[..|r| - 1]) == Some((s.files.GetOr([]), Shown(s, FindDefaultProfile(fs))))
      && ReadDump(r[..|r| - 1]).value.1[0]
         == Quoted(if s.profile.Some? then s.profile.value
                   else if FindDefaultProfile(fs).Success? then FindDefaultProfile(fs).value
                   else "")
  {
    var d := Render(s, FindDefaultProfile(fs));
    assert DumpText(s, fs)[..|DumpText(s, fs)| - 1] == d;
    DumpRoundTrip(s, FindDefaultProfile(fs));
  }

  /** Whether the settings ask for a dump (`dump_config.unwrap_or(false)`). */
  function Dumping(s: Settings): (d: bool)
    ensures d <==> s.dumpConfig == Some(true)
  {
    s.dumpConfig.GetOr(false)
  }

  /**
   * `main` after the configuration stage: the command line overlays the
   * settings, files are anchored at the profile and directories expanded.
   * A profile or file-list error dumps the merged settings when they ask for
   * a dump, whichever layer set it.
   */
  function Finish(a: Arguments, s1: Settings, fs: FileSystem): (r: Exit)
    ensures Dumping(UpdateFromArguments(s1, a)) ==> |r.stdout| > 9 && r.stdout[..9] == "files = ["
    ensures Dumping(UpdateFromArguments(s1, a)) ==> r.error.None? || !r.error.value.MailboxUnreadable?
    ensures r.error.Some? ==> !r.error.value.ConfigUnreadable? && !r.error.value.ConfigMalformed?
    ensures r.error == Some(NoInputFiles) ==> a.files == []
    ensures r.error.Some? && !r.error.value.MailboxUnreadable? ==> (r.stdout != [] <==> Dumping(UpdateFromArguments(s1, a)))
  {
    var s2 := UpdateFromArguments(s1, a);
    assert a.dumpConfig ==> Dumping(s2) by {
      assert Get(s2, DumpConfig) == Layer(Get(s1, DumpConfig), Given(a, DumpConfig));
    }
    assert a.files != [] ==> s2.files.Some? by {
      assert Get(s2, Files) == Layer(Get(s1, Files), Given(a, Files));
    }
    match UpdateRelativeFiles(s2, fs)
    case Failure(e) => Exit(if Dumping(s2) then DumpText(s2, fs) else "", Some(e))
    case Success(s3) =>
      var s4 := UpdateDirectoryFiles(s3, fs);
      if Dumping(s4) then Exit(DumpText(s4, fs), None) else Report.Report(s4, fs)
  }

  /**
   * `main`. A configuration error dumps the initial settings only when the
   * command line asks for a dump; `dump_config` from the file is not seen yet.
   */
  function Run(a: Arguments, fs: FileSystem, toml: Toml): (r: Exit)
    ensures a.dumpConfig ==> |r.stdout| > 9 && r.stdout[..9] == "files = ["
    ensures a.dumpConfig ==> r.error.None? || !r.error.value.MailboxUnreadable?
    ensures r.error.Some? && (r.error.value.ConfigUnreadable? || r.error.value.ConfigMalformed?) ==>
      !a.noConfig && fs.canonical(a.config.GetOr(DefaultConfig)).Some? && (r.stdout != [] <==> a.dumpConfig)
    ensures r.error == Some(NoInputFiles) ==> a.files == []
  {
    var s0 := InitialSettings(a, fs);
    match LoadConfig(a, s0, fs, toml)
    case Failure(e) => Exit(if a.dumpConfig then DumpText(s0, fs) else "", Some(e))
    case Success(s1) => Finish(a, s1, fs)
  }

  /**
   * The configuration file's layer as `main` applies it: none with
   * `--no-config` or when no file resolved, the parsed settings otherwise.
   * It is `None` as well when the file fails, where the run stops anyway.
   */
  function ConfigLayer(a: Arguments, fs: FileSystem, toml: Toml): (r: Option<Settings>)
    ensures r.Some? ==> !a.noConfig && InitialSettings(a, fs).config.Some?
    ensures r.Some? ==> var path := InitialSettings(a, fs).config.value;
      fs.read(path).Some? && toml(fs.read(path).value) == Success(r)
  {
    if a.noConfig then None
    else
      match ParseConfig(InitialSettings(a, fs), fs, toml)
      case Success(cfg) => cfg
      case Failure(_) => None
  }

  /**
   * Loading the configuration and then applying the command line, as `main`
   * does, is the three-layer `Config.Merge` of the initial settings, the
   * file and the command line.
   */
  lemma LoadThenArgumentsIsMerge(a: Arguments, fs: FileSystem, toml: Toml)
    ensures var s0 := InitialSettings(a, fs);
      LoadConfig(a, s0, fs, toml).Success? ==>
        UpdateFromArguments(LoadConfig(a, s0, fs, toml).value, a) == Merge(s0, ConfigLayer(a, fs, toml), a)
  {
  }

  /**
   * Whenever the run ends with a profile or file-list error, it printed the
   * dump exactly when the merged settings ask for one, whichever layer set
   * `dump_config`.
   */
  lemma RunDumpsOnSetupError(a: Arguments, fs: FileSystem, toml: Toml)
    ensures var r := Run(a, fs, toml);
      r.error.Some? && (r.error.value.IsProfileError() || r.error.value.NoInputFiles?) ==>
        (r.stdout != [] <==> Dumping(Merge(InitialSettings(a, fs), ConfigLayer(a, fs, toml), a)))
  {
    LoadThenArgumentsIsMerge(a, fs, toml);
  }

  /**
   * When the configuration loads and the merged settings ask for a dump,
   * whichever layer set `dump_config`, the run prints the dump and reads no
   * mailbox.
   */
  lemma RunDumpsMerged(a: Arguments, fs: FileSystem, toml: Toml)
    requires LoadConfig(a, InitialSettings(a, fs), fs, toml).Success?
    requires Dumping(Merge(InitialSettings(a, fs), ConfigLayer(a, fs, toml), a))
    ensures var r := Run(a, fs, toml);
      && |r.stdout| > 9 && r.stdout[..9] == "files = ["
      && (r.error.None? || !r.error.value.MailboxUnreadable?)
  {
    LoadThenArgumentsIsMerge(a, fs, toml);
  }

  /**
   * A `dump_config = true` in the configuration file takes effect when the
   * profile cannot be found: the merged settings are dumped before the error.
   */
  lemma RunProfileFailureDumps(a: Arguments, fs: FileSystem, toml: Toml, path: string, cfg: Settings, profile: string)
    requires !a.noConfig && a.profile == Some(profile)
    requires fs.canonical(a.config.GetOr(DefaultConfig)) == Some(path)
    requires fs.read(path).Some? && toml(fs.read(path).value) == Success(Some(cfg))
    requires cfg.dumpConfig == Some(true)
    requires fs.canonical(profile).None?
    ensures Run(a, fs, toml).error == Some(ProfileNotFound(profile))
    ensures |Run(a, fs, toml).stdout| > 9 && Run(a, fs, toml).stdout[..9] == "files = ["
  {
    var s0 := InitialSettings(a, fs);
    var s1 := UpdateFrom(s0, cfg);
    assert LoadConfig(a, s0, fs, toml) == Success(s1);
    var s2 := UpdateFromArguments(s1, a);
    assert Get(s1, DumpConfig) == Layer(Get(s0, DumpConfig), Get(cfg, DumpConfig));
    assert Get(s2, DumpConfig) == Layer(Get(s1, DumpConfig), Given(a, DumpConfig));
    assert Get(s2, Profile) == Layer(Get(s1, Profile), Given(a, Profile));
    assert Dumping(s2) && s2.profile == Some(profile);
  }

  /**
   * No `--profile`, no profile in the configuration, and no `profiles.ini`:
   * the run ends with that error, after a dump when one was asked for.
   */
  lemma RunProfilesIniMissing(a: Arguments, fs: FileSystem, toml: Toml)
    requires a.noConfig && a.profile.None?
    requires fs.canonical(ProfilesIni()).None?
    ensures Run(a, fs, toml).error == Some(ProfilesIniNotFound)
    ensures Run(a, fs, toml).stdout != [] <==> a.dumpConfig
  {
    var s0 := InitialSettings(a, fs);
    var s2 := UpdateFromArguments(s0, a);
    assert Get(s2, Profile) == Layer(Get(s0, Profile), Given(a, Profile));
    assert Get(s2, DumpConfig) == Layer(Get(s0, DumpConfig), Given(a, DumpConfig));
    assert ResolveProfile(s2, fs) == Failure(ProfilesIniNotFound);
    assert Dumping(s2) <==> a.dumpConfig;
  }

  /** The arguments of the end-to-end example: two absolute mailbox files, a profile, framing text, `--no-config`. */
  predicate ExampleArguments(a: Arguments) {
    a == Arguments(["/a.msf", "/b.msf"], Some("/p"), None, false, true, false, false, false,
                   Some("Unread: "), Some(" msgs"), false)
  }

  /** A file system where absolute paths resolve to themselves, only the two mailboxes can be read, and nothing is a directory. */
  ghost predicate ExampleFileSystem(fs: FileSystem) {
    && (forall p :: fs.canonical(p) == if IsAbsolute(p) then Some(p) else None)
    && fs.read("/a.msf") == Some("(^A2=A)") && fs.read("/b.msf") == Some("(^A2=5)")
    && (forall p :: !fs.isDir(p))
  }

  /** An absolute file under a resolving profile is left as it is. */
  lemma AnchorAbsolute(profile: string, f: string, fs: FileSystem)
    requires IsAbsolute(f) && fs.canonical(f) == Some(f)
    ensures Anchor(profile, f, fs) == f
  {
  }

  /** The command line alone, with absolute files, carries the example through to `Unread: 15 msgs`. */
  lemma RunExample(a: Arguments, fs: FileSystem, toml: Toml)
    requires ExampleArguments(a) && ExampleFileSystem(fs)
    ensures Run(a, fs, toml) == Exit("Unread: 15 msgs\n", None)
  {
    var s0 := InitialSettings(a, fs);
    assert LoadConfig(a, s0, fs, toml) == Success(s0);
    var s2 := UpdateFromArguments(s0, a);
    assert s2 == ArgumentOverlay(a).(config := s0.config);
    assert ResolveProfile(s2, fs) == Success("/p");
    AnchorAbsolute("/p", "/a.msf", fs);
    AnchorAbsolute("/p", "/b.msf", fs);
    var s3 := UpdateRelativeFiles(s2, fs).value;
    assert s3.files.value == ["/a.msf", "/b.msf"];
    assert s3 == s2;
    var s4 := UpdateDirectoryFiles(s3, fs);
    assert s4.files.value == ["/a.msf", "/b.msf"];
    assert s4 == s3;
    ReportExample(s4, fs);
  }

  /** The file system of `RunRelativeDirectory`: only `/p` resolves, and `Mail/x/` is a directory holding `Inbox.msf`. */
  ghost predicate RelativeDirectoryFileSystem(fs: FileSystem) {
    && (forall p :: fs.canonical(p) == if p == "/p" then Some("/p") else None)
    && (forall p :: fs.isDir(p) == (p == "Mail/x/") && fs.isFile(p) == (p == "Mail/x/Inbox.msf"))
    && (forall p :: fs.read(p) == if p == "Mail/x/Inbox.msf" then Some("(^A2=3)") else None)
  }

  /** The arguments `--no-config -p /p Mail/x`. */
  predicate RelativeDirectoryArguments(a: Arguments) {
    a == Arguments(["Mail/x"], Some("/p"), None, false, true, false, false, false, None, None, false)
  }

  /** Under the profile `/p`, the unresolved entry `Mail/x` is kept with a trailing `/`. */
  lemma RelativeDirectoryAnchored(s2: Settings, fs: FileSystem)
    requires RelativeDirectoryFileSystem(fs)
    requires s2.profile == Some("/p") && s2.files == Some(["Mail/x"])
    ensures UpdateRelativeFiles(s2, fs).Success?
    ensures UpdateRelativeFiles(s2, fs).value.files == Some(["Mail/x/"])
  {
    assert ResolveProfile(s2, fs) == Success("/p");
    assert Join("/p", "Mail/x") == "/p/Mail/x";
    assert Anchor("/p", "Mail/x", fs) == "Mail/x/";
    var s3 := UpdateRelativeFiles(s2, fs).value;
    assert |s3.files.value| == 1 && s3.files.value[0] == "Mail/x/";
    assert s3.files.value == ["Mail/x/"];
  }

  /** Expanding `Mail/x/` as the source does pushes `Mail/x/Inbox.msf` onto it. */
  lemma RelativeDirectoryExpanded(s3: Settings, fs: FileSystem)
    requires forall p :: fs.isDir(p) == (p == "Mail/x/") && fs.isFile(p) == (p == "Mail/x/Inbox.msf")
    requires s3.files == Some(["Mail/x/"])
    ensures UpdateDirectoryFiles(s3, fs).files == Some(["Mail/x/Mail/x/Inbox.msf"])
  {
    assert Join("Mail/x/", Inbox) == "Mail/x/Inbox.msf";
    assert Join("Mail/x/", "Mail/x/Inbox.msf") == "Mail/x/Mail/x/Inbox.msf";
    assert ExpandDirectoryAsWritten("Mail/x/", fs) == "Mail/x/Mail/x/Inbox.msf";
    var s4 := UpdateDirectoryFiles(s3, fs);
    assert |s4.files.value| == 1 && s4.files.value[0] == "Mail/x/Mail/x/Inbox.msf";
    assert s4.files.value == ["Mail/x/Mail/x/Inbox.msf"];
  }

  /**
   * `main` on a relative mailbox directory that does not resolve under the
   * profile: the entry gains a trailing `/`, directory expansion then pushes
   * `Mail/x/Inbox.msf` onto `Mail/x/`, and the doubled path cannot be read.
   */
  lemma RunRelativeDirectory(a: Arguments, fs: FileSystem, toml: Toml)
    requires RelativeDirectoryArguments(a) && RelativeDirectoryFileSystem(fs)
    ensures Run(a, fs, toml) == Exit("", Some(MailboxUnreadable("Mail/x/Mail/x/Inbox.msf")))
  {
    var s0 := InitialSettings(a, fs);
    assert LoadConfig(a, s0, fs, toml) == Success(s0);
    var s2 := UpdateFromArguments(s0, a);
    assert s2 == ArgumentOverlay(a).(config := s0.config);
    RelativeDirectoryAnchored(s2, fs);
    var s3 := UpdateRelativeFiles(s2, fs).value;
    RelativeDirectoryExpanded(s3, fs);
    var s4 := UpdateDirectoryFiles(s3, fs);
    assert !Dumping(s4);
    assert LeadingReadable(s4.files.value, fs) == 0;
    assert s4.files.value[..0] == [];
  }
}

=== FILE: config.dfy ===
/**
 * The program's settings: one record of optional fields, filled in layers.
 * `Settings::default()` leaves everything unset, the configuration file
 * overlays it (`update_settings_from`), then the command-line arguments
 * overlay the result (`update_settings_from_arguments`).
 */
module Config {
  import opened Wrappers

  /** `Settings`: every field may be unset; `files` is a list of paths. */
  datatype Settings = Settings(
    files: Option<seq<string>>,
    profile: Option<string>,
    config: Option<string>,
    dumpConfig: Option<bool>,
    noConfig: Option<bool>,
    noZero: Option<bool>,
    noNewline: Option<bool>,
    trim: Option<bool>,
    before: Option<string>,
    after: Option<string>,
    location: Option<bool>)

  /** `Settings::default()`. */
  const Unset: Settings :=
    Settings(None, None, None, None, None, None, None, None, None, None, None)

  /**
   * `Arguments`, the parsed command line: switches are plain booleans (absent
   * means `false`) and the file list is empty when no file is given.
   */
  datatype Arguments = Arguments(
    files: seq<string>,
    profile: Option<string>,
    config: Option<string>,
    dumpConfig: bool,
    noConfig: bool,
    noZero: bool,
    noNewline: bool,
    trim: bool,
    before: Option<string>,
    after: Option<string>,
    location: bool)

  /** The fields of `Settings`, in declaration order. */
  datatype Field =
    | Files | Profile | ConfigPath | DumpConfig | NoConfig | NoZero
    | NoNewline | Trim | Before | After | Location
  {
    predicate IsSwitch() {
      DumpConfig? || NoConfig? || NoZero? || NoNewline? || Trim? || Location?
    }
  }

  /** The value a field holds, whatever its type. */
  datatype Value = PathList(paths: seq<string>) | Str(text: string) | Switch(on: bool)

  function LiftPaths(o: Option<seq<string>>): Option<Value> {
    match o
    case Some(v) => Some(PathList(v))
    case None => None
  }

  function LiftStr(o: Option<string>): Option<Value> {
    match o
    case Some(v) => Some(Str(v))
    case None => None
  }

  function LiftSwitch(o: Option<bool>): Option<Value> {
    match o
    case Some(v) => Some(Switch(v))
    case None => None
  }

  /** The value of field `f` in `s`, uniformly typed. */
  function Get(s: Settings, f: Field): Option<Value> {
    match f
    case Files => LiftPaths(s.files)
    case Profile => LiftStr(s.profile)
    case ConfigPath => LiftStr(s.config)
    case DumpConfig => LiftSwitch(s.dumpConfig)
    case NoConfig => LiftSwitch(s.noConfig)
    case NoZero => LiftSwitch(s.noZero)
    case NoNewline => LiftSwitch(s.noNewline)
    case Trim => LiftSwitch(s.trim)
    case Before => LiftStr(s.before)
    case After => LiftStr(s.after)
    case Location => LiftSwitch(s.location)
  }

  /** One layer over another: a present upper value wins, an absent one keeps the lower. */
  function Layer<T>(lower: Option<T>, upper: Option<T>): Option<T> {
    if upper.Some? then upper else lower
  }

  /**
   * `update_settings_from`: every field present in `cfg` replaces the current
   * value, every absent one leaves it alone, and `config` is never taken from
   * `cfg`.
   */
  function UpdateFrom(s: Settings, cfg: Settings): (r: Settings)
    ensures forall f: Field :: f != ConfigPath ==> Get(r, f) == Layer(Get(s, f), Get(cfg, f))
    ensures Get(r, ConfigPath) == Get(s, ConfigPath)
  {
    var r := s.(files := Layer(s.files, cfg.files),
                profile := Layer(s.profile, cfg.profile),
                dumpConfig := Layer(s.dumpConfig, cfg.dumpConfig),
                noConfig := Layer(s.noConfig, cfg.noConfig),
                noZero := Layer(s.noZero, cfg.noZero),
                noNewline := Layer(s.noNewline, cfg.noNewline),
                trim := Layer(s.trim, cfg.trim),
                location := Layer(s.location, cfg.location),
                before := Layer(s.before, cfg.before),
                after := Layer(s.after, cfg.after));
    LayerByField(s, cfg, r);
    r
  }

  /** Field by field, a record whose every field but `config` is layered is a layering of the whole. */
  lemma LayerByField(s: Settings, cfg: Settings, r: Settings)
    requires r.files == Layer(s.files, cfg.files) && r.profile == Layer(s.profile, cfg.profile)
    requires r.config == s.config
    requires r.dumpConfig == Layer(s.dumpConfig, cfg.dumpConfig) && r.noConfig == Layer(s.noConfig, cfg.noConfig)
    requires r.noZero == Layer(s.noZero, cfg.noZero) && r.noNewline == Layer(s.noNewline, cfg.noNewline)
    requires r.trim == Layer(s.trim, cfg.trim) && r.location == Layer(s.location, cfg.location)
    requires r.before == Layer(s.before, cfg.before) && r.after == Layer(s.after, cfg.after)
    ensures forall f: Field :: f != ConfigPath ==> Get(r, f) == Layer(Get(s, f), Get(cfg, f))
    ensures Get(r, ConfigPath) == Get(s, ConfigPath)
  {
    forall f: Field | f != ConfigPath
      ensures Get(r, f) == Layer(Get(s, f), Get(cfg, f))
    {
      match f
      case Files =>
      case Profile =>
      case ConfigPath =>
      case DumpConfig =>
      case NoConfig =>
      case NoZero =>
      case NoNewline =>
      case Trim =>
      case Before =>
      case After =>
      case Location =>
    }
  }

  /** What the command line contributes to field `f`: a non-empty file list, a given value, or a set switch. */
  function Given(a: Arguments, f: Field): (v: Option<Value>)
    ensures f.IsSwitch() ==> v.None? || v == Some(Switch(true))
    ensures f == ConfigPath ==> v.None?
  {
    match f
    case Files => if a.files != [] then Some(PathList(a.files)) else None
    case Profile => LiftStr(a.profile)
    case ConfigPath => None
    case DumpConfig => if a.dumpConfig then Some(Switch(true)) else None
    case NoConfig => if a.noConfig then Some(Switch(true)) else None
    case NoZero => if a.noZero then Some(Switch(true)) else None
    case NoNewline => if a.noNewline then Some(Switch(true)) else None
    case Trim => if a.trim then Some(Switch(true)) else None
    case Before => LiftStr(a.before)
    case After => LiftStr(a.after)
    case Location => if a.location then Some(Switch(true)) else None
  }

  /** The command line as a sparse settings record: exactly its given fields. */
  function ArgumentOverlay(a: Arguments): (o: Settings)
    ensures forall f: Field :: Get(o, f) == Given(a, f)
  {
    Settings(
      if a.files != [] then Some(a.files) else None,
      a.profile,
      None,
      if a.dumpConfig then Some(true) else None,
      if a.noConfig then Some(true) else None,
      if a.noZero then Some(true) else None,
      if a.noNewline then Some(true) else None,
      if a.trim then Some(true) else None,
      a.before,
      a.after,
      if a.location then Some(true) else None)
  }

  /**
   * `update_settings_from_arguments`: each field the command line gives
   * replaces the current value. A switch can only be turned on, so a switch
   * already on stays on; `config` is left alone. This is the same layering as
   * the configuration file's, applied to the command line's fields.
   */
  function UpdateFromArguments(s: Settings, a: Arguments): (r: Settings)
    ensures forall f: Field :: Get(r, f) == Layer(Get(s, f), Given(a, f))
    ensures forall f: Field :: f.IsSwitch() && Get(s, f) == Some(Switch(true)) ==> Get(r, f) == Some(Switch(true))
    ensures forall f: Field :: f.IsSwitch() && Get(r, f) == Some(Switch(false)) ==> Get(s, f) == Some(Switch(false))
  {
    UpdateFrom(s, ArgumentOverlay(a))
  }

  /** Applying the same overlay twice changes nothing more. */
  lemma UpdateFromIdempotent(s: Settings, cfg: Settings)
    ensures UpdateFrom(UpdateFrom(s, cfg), cfg) == UpdateFrom(s, cfg)
  {
  }

  /** Two overlays in a row are one overlay made of both, the later winning. */
  lemma UpdateFromComposes(s: Settings, lower: Settings, upper: Settings)
    ensures UpdateFrom(UpdateFrom(s, lower), upper) == UpdateFrom(s, UpdateFrom(lower, upper))
  {
  }

  /** An overlay with nothing set leaves the settings unchanged. */
  lemma UpdateFromUnsetIsIdentity(s: Settings)
    ensures UpdateFrom(s, Unset) == s
  {
  }

  /**
   * The effective settings before any file-system resolution: defaults, then
   * the configuration file when one was loaded, then the command line.
   */
  function Merge(defaults: Settings, file: Option<Settings>, args: Arguments): (r: Settings)
    ensures r.config == defaults.config
    ensures forall f :: Given(args, f).Some? ==> Get(r, f) == Given(args, f)
    ensures forall f :: Given(args, f).None? && file.Some? && Get(file.value, f).Some? && f != ConfigPath ==>
      Get(r, f) == Get(file.value, f)
  {
    var fromFile := match file
      case Some(cfg) => UpdateFrom(defaults, cfg)
      case None => defaults;
    UpdateFromArguments(fromFile, args)
  }

  /** A field given on the command line has the command line's value, whatever the other layers hold. */
  lemma MergeArgumentsWin(defaults: Settings, file: Option<Settings>, args: Arguments, f: Field)
    requires Given(args, f).Some?
    ensures Get(Merge(defaults, file, args), f) == Given(args, f)
  {
  }

  /** A field not given on the command line but present in the file has the file's value. */
  lemma MergeFileWins(defaults: Settings, cfg: Settings, args: Arguments, f: Field)
    requires Given(args, f).None? && Get(cfg, f).Some? && f != ConfigPath
    ensures Get(Merge(defaults, Some(cfg), args), f) == Get(cfg, f)
  {
  }

  /** A field absent from both upper layers keeps its default. */
  lemma MergeFallsBack(defaults: Settings, file: Option<Settings>, args: Arguments, f: Field)
    requires Given(args, f).None?
    requires file.None? || Get(file.value, f).None? || f == ConfigPath
    ensures Get(Merge(defaults, file, args), f) == Get(defaults, f)
  {
  }
}

=== FILE: dump.dfy ===
/**
 * The settings dump (`impl Display for Settings`): one `key = value` line per
 * field in a fixed order, strings in double quotes without escaping, unset
 * switches as `false`, and a bracketed file list. A reader for that text is
 * defined alongside, and reading a dump back recovers every value shown.
 */
module Dump {
  import opened Wrappers
  import opened Text
  import opened Errors
  import opened Config

  /** A string or path between double quotes, with nothing escaped. */
  function Quote(x: string): string {
    "\"" + x + "\""
  }

  /** A value shown on one of the lines after the file list. */
  datatype Scalar = Quoted(text: string) | Bool(on: bool)

  function RenderScalar(v: Scalar): string {
    match v
    case Quoted(t) => Quote(t)
    case Bool(b) => if b then "true" else "false"
  }

  /** The keys after `files`, in the order they are written. */
  const Keys: seq<string> := ["profile", "config", "dump_config", "no_config", "no_zero",
                              "no_newline", "trim", "before", "after", "location"]

  /**
   * The values shown for `Keys`: a missing profile falls back to the default
   * profile, or to the empty path when there is none; an unset switch is
   * `false` and an unset string is empty.
   */
  function Shown(s: Settings, defaultProfile: Result<string, Error>): (vs: seq<Scalar>)
    ensures |vs| == |Keys|
  {
    [ Quoted(s.profile.GetOr(defaultProfile.GetOr(""))),
      Quoted(s.config.GetOr("")),
      Bool(s.dumpConfig.GetOr(false)),
      Bool(s.noConfig.GetOr(false)),
      Bool(s.noZero.GetOr(false)),
      Bool(s.noNewline.GetOr(false)),
      Bool(s.trim.GetOr(false)),
      Quoted(s.before.GetOr("")),
      Quoted(s.after.GetOr("")),
      Bool(s.location.GetOr(false)) ]
  }

  /** The lines `\n<key> = <value>` for the given keys and values. */
  function Entries(keys: seq<string>, vals: seq<Scalar>): string
    requires |keys| == |vals|
  {
    if keys == [] then ""
    else "\n" + keys[0] + " = " + RenderScalar(vals[0]) + Entries(keys[1..], vals[1..])
  }

  /** The multi-line list body: `\n    "<file>",` per entry. */
  function FileLines(files: seq<string>): string {
    if files == [] then ""
    else "\n    " + Quote(files[0]) + "," + FileLines(files[1..])
  }

  /** The file list after `files = [`: `]`, `"x"]`, or one indented line per file and `\n]`. */
  function FileList(files: seq<string>): string {
    if |files| == 1 then Quote(files[0]) + "]"
    else if files == [] then "]"
    else FileLines(files) + "\n]"
  }

  /** The dump text itself, without the newline `println!` adds. */
  function Render(s: Settings, defaultProfile: Result<string, Error>): (r: string)
    ensures |r| >= 9 && r[..9] == "files = ["
  {
    "files = [" + FileList(s.files.GetOr([])) + Entries(Keys, Shown(s, defaultProfile))
  }

  // A reader for dump text.

  /** The text after `lit`, when `s` starts with it. */
  function Expect(lit: string, s: string): (r: Option<string>)
    ensures r.Some? ==> s == lit + r.value
  {
    if |lit| <= |s| && s[..|lit|] == lit then Some(s[|lit|..]) else None
  }

  /** A double-quoted string at the start of `s`, and the text after it. */
  function ReadQuoted(s: string): (r: Option<(string, string)>)
    ensures r.Some? ==> |r.value.1| < |s|
  {
    if |s| > 0 && s[0] == '"' then
      match SplitOnce(s[1..], "\"")
      case Some(parts) => Some(parts)
      case None => None
    else None
  }

  function ReadScalar(s: string): (r: Option<(Scalar, string)>)
    ensures r.Some? ==> |r.value.1| < |s|
  {
    if |s| > 0 && s[0] == '"' then
      var q :- ReadQuoted(s);
      Some((Quoted(q.0), q.1))
    else if Expect("true", s).Some? then Some((Bool(true), Expect("true", s).value))
    else if Expect("false", s).Some? then Some((Bool(false), Expect("false", s).value))
    else None
  }

  /** The lines for `keys`, which must make up all of `s`. */
  function ReadEntries(keys: seq<string>, s: string): Option<seq<Scalar>> {
    if keys == [] then
      if s == [] then Some([]) else None
    else
      var rest :- Expect("\n" + keys[0] + " = ", s);
      var v :- ReadScalar(rest);
      var vs :- ReadEntries(keys[1..], v.1);
      Some([v.0] + vs)
  }

  function ReadFileLines(s: string): Option<(seq<string>, string)>
    decreases |s|
  {
    if Expect("\n]", s).Some? then Some(([], Expect("\n]", s).value))
    else
      var rest :- Expect("\n    ", s);
      var q :- ReadQuoted(rest);
      var after :- Expect(",", q.1);
      var more :- ReadFileLines(after);
      Some(([q.0] + more.0, more.1))
  }

  /**
   * The file list after `files = [`, in exactly one of its three shapes:
   * `]` for no file, `"x"]` for one, and the indented lines only for two or
   * more.
   */
  function ReadFileList(s: string): Option<(seq<string>, string)> {
    if Expect("]", s).Some? then Some(([], Expect("]", s).value))
    else if |s| > 0 && s[0] == '"' then
      var q :- ReadQuoted(s);
      var rest :- Expect("]", q.1);
      Some(([q.0], rest))
    else
      var lines :- ReadFileLines(s);
      if |lines.0| >= 2 then Some(lines) else None
  }

  /** Reads a whole dump: the file list and the values of `Keys`, in order. */
  function ReadDump(text: string): Option<(seq<string>, seq<Scalar>)> {
    var rest :- Expect("files = [", text);
    var files :- ReadFileList(rest);
    var vals :- ReadEntries(Keys, files.1);
    Some((files.0, vals))
  }

  // Round trip.

  /** No value holds a double quote, the one character the dump cannot show unescaped. */
  predicate Unquoted(x: string) {
    '"' !in x
  }

  predicate AllUnquoted(xs: seq<string>) {
    forall i :: 0 <= i < |xs| ==> Unquoted(xs[i])
  }

  predicate ScalarsUnquoted(vals: seq<Scalar>) {
    forall i :: 0 <= i < |vals| && vals[i].Quoted? ==> Unquoted(vals[i].text)
  }

  lemma ExpectPrefix(lit: string, t: string)
    ensures Expect(lit, lit + t) == Some(t)
  {
    assert (lit + t)[..|lit|] == lit;
  }

  lemma ReadQuotedRoundTrip(x: string, t: string)
    requires Unquoted(x)
    ensures ReadQuoted(Quote(x) + t) == Some((x, t))
  {
    var s := Quote(x) + t;
    assert s[1..] == x + "\"" + t;
    SplitOnceAtChar(x, '"', t);
  }

  lemma ReadScalarRoundTrip(v: Scalar, t: string)
    requires v.Quoted? ==> Unquoted(v.text)
    ensures ReadScalar(RenderScalar(v) + t) == Some((v, t))
  {
    match v
    case Quoted(x) =>
      ReadQuotedRoundTrip(x, t);
    case Bool(b) =>
      if b {
        ExpectPrefix("true", t);
      } else {
        ExpectPrefix("false", t);
        assert ("false" + t)[..4] != "true" by {
          assert ("false" + t)[0] == 'f';
        }
      }
  }

  lemma {:induction false} ReadEntriesRoundTrip(keys: seq<string>, vals: seq<Scalar>)
    requires |keys| == |vals|
    requires ScalarsUnquoted(vals)
    ensures ReadEntries(keys, Entries(keys, vals)) == Some(vals)
  {
    if keys != [] {
      var lead := "\n" + keys[0] + " = ";
      var tail := Entries(keys[1..], vals[1..]);
      assert Entries(keys, vals) == lead + (RenderScalar(vals[0]) + tail);
      ExpectPrefix(lead, RenderScalar(vals[0]) + tail);
      ReadScalarRoundTrip(vals[0], tail);
      ReadEntriesRoundTrip(keys[1..], vals[1..]);
      assert [vals[0]] + vals[1..] == vals;
    }
  }

  /** One file line in front of text the reader accepts adds that file to the front of what it reads. */
  lemma ReadFileLinesStep(x: string, tail: string)
    requires Unquoted(x) && ReadFileLines(tail).Some?
    ensures ReadFileLines("\n    " + Quote(x) + "," + tail)
      == Some(([x] + ReadFileLines(tail).value.0, ReadFileLines(tail).value.1))
  {
    var s := "\n    " + Quote(x) + "," + tail;
    assert s == "\n    " + (Quote(x) + ("," + tail));
    assert s[1] == ' ';
    assert Expect("\n]", s).None?;
    ExpectPrefix("\n    ", Quote(x) + ("," + tail));
    ReadQuotedRoundTrip(x, "," + tail);
    ExpectPrefix(",", tail);
  }

  lemma {:induction false} ReadFileLinesRoundTrip(files: seq<string>, t: string)
    requires AllUnquoted(files)
    ensures ReadFileLines(FileLines(files) + "\n]" + t) == Some((files, t))
  {
    if files == [] {
      assert FileLines(files) + "\n]" + t == "\n]" + t;
      ExpectPrefix("\n]", t);
    } else {
      var tail := FileLines(files[1..]) + "\n]" + t;
      assert FileLines(files) + "\n]" + t == "\n    " + Quote(files[0]) + "," + tail;
      assert Unquoted(files[0]);
      ReadFileLinesRoundTrip(files[1..], t);
      ReadFileLinesStep(files[0], tail);
      assert [files[0]] + files[1..] == files;
    }
  }

  lemma ReadFileListRoundTrip(files: seq<string>, t: string)
    requires AllUnquoted(files)
    ensures ReadFileList(FileList(files) + t) == Some((files, t))
  {
    if files == [] {
      ExpectPrefix("]", t);
    } else if |files| == 1 {
      var s := Quote(files[0]) + "]" + t;
      assert s == Quote(files[0]) + ("]" + t);
      assert s[0] == '"';
      assert Unquoted(files[0]);
      ReadQuotedRoundTrip(files[0], "]" + t);
      ExpectPrefix("]", t);
      assert [files[0]] == files;
    } else {
      var s := FileLines(files) + "\n]" + t;
      assert s[0] == '\n';
      ReadFileLinesRoundTrip(files, t);
    }
  }

  /**
   * Reading a dump back yields the file list and, for each later key in
   * order, the value shown: the profile or its fallback, empty strings for
   * unset strings, `false` for unset switches. This holds whenever no value
   * contains a double quote.
   */
  lemma DumpRoundTrip(s: Settings, defaultProfile: Result<string, Error>)
    requires AllUnquoted(s.files.GetOr([]))
    requires Unquoted(s.profile.GetOr(defaultProfile.GetOr(""))) && Unquoted(s.config.GetOr(""))
    requires Unquoted(s.before.GetOr("")) && Unquoted(s.after.GetOr(""))
    ensures ReadDump(Render(s, defaultProfile)) == Some((s.files.GetOr([]), Shown(s, defaultProfile)))
  {
    var files := s.files.GetOr([]);
    var vals := Shown(s, defaultProfile);
    var entries := Entries(Keys, vals);
    assert Render(s, defaultProfile) == "files = [" + (FileList(files) + entries);
    ExpectPrefix("files = [", FileList(files) + entries);
    ReadFileListRoundTrip(files, entries);
    ShownUnquoted(s, defaultProfile);
    ReadEntriesRoundTrip(Keys, vals);
  }

  /** The quoted values shown are exactly the profile, `config`, `before` and `after`. */
  lemma ShownUnquoted(s: Settings, defaultProfile: Result<string, Error>)
    requires Unquoted(s.profile.GetOr(defaultProfile.GetOr(""))) && Unquoted(s.config.GetOr(""))
    requires Unquoted(s.before.GetOr("")) && Unquoted(s.after.GetOr(""))
    ensures ScalarsUnquoted(Shown(s, defaultProfile))
  {
    var vals := Shown(s, defaultProfile);
    forall i | 0 <= i < |vals| && vals[i].Quoted? ensures Unquoted(vals[i].text) {
      assert i in {0, 1, 7, 8};
    }
  }
}

=== FILE: errors.dfy ===
/** The run-ending errors the program reports. */
module Errors {

  datatype Error =
    | ConfigUnreadable(path: string)       // the config file exists but cannot be read
    | ConfigMalformed(reason: string)      // the config file is not a valid settings document
    | ProfilesIniNotFound                  // `~/.thunderbird/profiles.ini` does not resolve
    | ProfilesIniUnreadable(path: string)  // it resolves but cannot be read
    | NoDefaultProfile                     // it holds no usable `Path=` entry
    | ProfileNotFound(path: string)        // an explicitly given profile does not resolve
    | NoInputFiles                         // no mailbox files were given anywhere
    | MailboxUnreadable(path: string)      // a mailbox file cannot be read
  {
    /** The errors that mean no profile directory could be determined. */
    predicate IsProfileError() {
      ProfilesIniNotFound? || ProfilesIniUnreadable? || NoDefaultProfile? || ProfileNotFound?
    }
  }
}

=== FILE: mork.dfy ===
/**
 * The unread-message count of a Thunderbird `.msf` mailbox summary, a file in
 * the Mork format. The cell `(^A2=<hex>)` carries the unread count; the file
 * is an append-only log, so only its last such cell is current.
 */
module Mork {
  import opened Wrappers
  import opened Text
  import opened Radix
  import opened Paths
  import opened Errors

  /** The text that introduces the unread-count value: column reference `^A2` and `=`. */
  const UnreadMarker: string := "(^A2="

  /** The text between the last marker and the first `)` after it; empty when either is missing. */
  function UnreadToken(text: string): (token: string)
    ensures ')' !in token
  {
    var after := match RSplitOnce(text, UnreadMarker)
      case Some(parts) => parts.1
      case None => "";
    match SplitOnce(after, ")")
    case Some(parts) =>
      assert Absent(parts.0, ")") by {
        assert parts.0 + ")"[..0] == parts.0;
      }
      assert forall k :: 0 <= k < |parts.0| && parts.0[k] == ')' ==> OccursAt(parts.0, ")", k);
      parts.0
    case None => ""
  }

  /**
   * `mailbox_count_unread` once the file has been read: the token parsed as a
   * hexadecimal `u32`, and 0 whenever the marker, the `)` or a valid number is
   * missing.
   */
  function CountUnread(text: string): (r: nat)
    ensures r <= U32_MAX
    ensures r > 0 ==> !Absent(text, UnreadMarker)
  {
    ParseHexU32(UnreadToken(text)).GetOr(0)
  }

  /** `mailbox_count_unread`: a read failure is the only error. */
  function MailboxCountUnread(path: string, fs: FileSystem): (r: Result<nat, Error>)
    ensures r.Failure? <==> fs.read(path).None?
    ensures r.Failure? ==> r.error == MailboxUnreadable(path)
    ensures r.Success? ==> r.value <= U32_MAX
  {
    match fs.read(path)
    case None => Failure(MailboxUnreadable(path))
    case Some(text) => Success(CountUnread(text))
  }

  /** No marker in a text means a count of 0. */
  lemma CountUnreadWithoutMarker(text: string)
    requires Absent(text, UnreadMarker)
    ensures CountUnread(text) == 0
  {
  }

  /**
   * The value of the last cell wins: whatever precedes it, a text whose last
   * marker is followed by `tok` and `)` counts `tok` read as hexadecimal, or 0
   * when `tok` is not a valid `u32` numeral.
   */
  lemma CountUnreadOfLastCell(prefix: string, tok: string, suffix: string)
    requires ')' !in tok
    requires Absent(tok + ")" + suffix, UnreadMarker)
    ensures CountUnread(prefix + UnreadMarker + tok + ")" + suffix) == ParseHexU32(tok).GetOr(0)
  {
    var text := prefix + UnreadMarker + tok + ")" + suffix;
    var i0 := |prefix|;
    var tail := tok + ")" + suffix;
    assert text == prefix + UnreadMarker + tail;
    assert text[i0..i0 + |UnreadMarker|] == UnreadMarker;
    assert OccursAt(text, UnreadMarker, i0);
    forall j | i0 < j <= |text|
      ensures !OccursAt(text, UnreadMarker, j)
    {
      if j + 5 <= |text| {
        if j < i0 + 5 {
          assert text[j..j + 5][0] == text[j] == UnreadMarker[j - i0] != '(';
        } else {
          assert text[j..j + 5] == tail[j - i0 - 5..j - i0];
          assert !OccursAt(tail, UnreadMarker, j - i0 - 5);
        }
      }
    }
    assert RFind(text, UnreadMarker).value == i0;
    assert RSplitOnce(text, UnreadMarker) == Some((prefix, tail));
    SplitOnceAtChar(tok, ')', suffix);
    assert UnreadToken(text) == tok;
  }

  /** A hexadecimal numeral and its closing `)` cannot hold the marker, so the marker is absent after it when it is absent from `suffix`. */
  lemma HexCellAbsent(h: string, suffix: string)
    requires AllHex(h) && Absent(suffix, UnreadMarker)
    ensures Absent(h + ")" + suffix, UnreadMarker)
  {
    var t := h + ")" + suffix;
    forall j | 0 <= j <= |t|
      ensures !OccursAt(t, UnreadMarker, j)
    {
      if j < |h| {
        assert HexDigit(h[j]).Some? && t[j] == h[j];
      } else if j == |h| {
        assert j < |t| && t[j] == ')';
      } else if j + 5 <= |t| {
        assert t[j..j + 5] == suffix[j - |h| - 1..j - |h| + 4];
        assert !OccursAt(suffix, UnreadMarker, j - |h| - 1);
      }
    }
  }

  /** The headline case: the count written into the last cell, in upper-case hexadecimal. */
  lemma CountUnreadLastWins(prefix: string, n: nat, suffix: string)
    requires n <= U32_MAX
    requires Absent(suffix, UnreadMarker)
    ensures CountUnread(prefix + UnreadMarker + ToHex(n) + ")" + suffix) == n
  {
    var h := ToHex(n);
    assert forall k :: 0 <= k < |h| ==> HexDigit(h[k]).Some?;
    ParseHexRoundTrip(n);
    HexCellAbsent(h, suffix);
    CountUnreadOfLastCell(prefix, h, suffix);
  }

  /** A last marker with no `)` anywhere after it counts 0. */
  lemma CountUnreadUnclosed(prefix: string, rest: string)
    requires ')' !in rest
    ensures CountUnread(prefix + UnreadMarker + rest) == 0
  {
    var text := prefix + UnreadMarker + rest;
    var i0 := |prefix|;
    assert text[i0..i0 + |UnreadMarker|] == UnreadMarker;
    assert OccursAt(text, UnreadMarker, i0);
    var parts := RSplitOnce(text, UnreadMarker).value;
    var i := RFind(text, UnreadMarker).value;
    assert i >= i0;
    var after := parts.1;
    assert after == text[i + 5..];
    assert after == rest[i - i0..];
    assert Absent(after, ")") by {
      forall k | 0 <= k < |after| ensures !OccursAt(after, ")", k) {
        assert after[k] == rest[i - i0 + k];
      }
    }
  }

  /** Two cells, the second one current: `(^A2=A)` then `(^A2=1F)` counts 31. */
  lemma CountUnreadExample()
    ensures CountUnread("...(^A2=A)...(^A2=1F)...") == 31
  {
    var text := "...(^A2=A)...(^A2=1F)...";
    assert ToHex(31) == "1F" by {
      assert ToHex(1) == "1";
    }
    assert Absent("...", UnreadMarker);
    assert text == "...(^A2=A)..." + UnreadMarker + "1F" + ")" + "...";
    CountUnreadLastWins("...(^A2=A)...", 31, "...");
  }
}

=== FILE: paths.dfy ===
/**
 * Unix path strings as Rust's `Path`/`PathBuf` treat them, and the file-system
 * queries the program makes, which the model receives as oracle functions.
 */
module Paths {
  import opened Wrappers

  /** A path that starts at the root (`Path::is_absolute` / `has_root` on Unix). */
  predicate IsAbsolute(p: string) {
    |p| > 0 && p[0] == '/'
  }

  /**
   * `base.join(p)`, which is `PathBuf::push` applied to a copy of `base`: an
   * absolute `p` replaces `base`; otherwise `p` is appended, after a `/`
   * unless `base` is empty or already ends with one.
   */
  function Join(base: string, p: string): (r: string)
    ensures IsAbsolute(p) ==> r == p
    ensures !IsAbsolute(p) ==> |base| + |p| <= |r| <= |base| + |p| + 1
    ensures !IsAbsolute(p) ==> r[..|base|] == base && r[|r| - |p|..] == p
    ensures !IsAbsolute(p) ==> (|r| > |base| + |p| <==> base != [] && base[|base| - 1] != '/')
    ensures !IsAbsolute(p) && |r| > |base| + |p| ==> r[|base|] == '/'
  {
    if IsAbsolute(p) then p
    else if base != [] && base[|base| - 1] != '/' then base + "/" + p
    else base + p
  }

  /** Joining onto an absolute path gives an absolute path. */
  lemma JoinKeepsAbsolute(base: string, p: string)
    requires IsAbsolute(base)
    ensures IsAbsolute(Join(base, p))
  {
  }

  /** Pushing the empty path leaves `base` unchanged apart from a trailing separator. */
  lemma JoinEmpty(base: string)
    ensures base == [] || base[|base| - 1] == '/' ==> Join(base, "") == base
    ensures base != [] && base[|base| - 1] != '/' ==> Join(base, "") == base + "/"
  {
  }

  /**
   * The file-system facts the program consults. `canonical` is `fullpath`:
   * tilde expansion followed by `canonicalize`, `None` when the path does not
   * resolve. `read` is `fs::read_to_string`, `None` when it fails. `isDir` and
   * `isFile` are `Path::is_dir` and `Path::is_file`.
   */
  datatype FileSystem = FileSystem(
    canonical: string -> Option<string>,
    read: string -> Option<string>,
    isDir: string -> bool,
    isFile: string -> bool)
  {
    /** What every real `canonicalize` satisfies: a resolved path is absolute. */
    ghost predicate Resolves() {
      forall p :: canonical(p).Some? ==> IsAbsolute(canonical(p).value)
    }

    /** A resolved path resolves to itself, as a canonical path does. */
    ghost predicate Settled() {
      forall p :: canonical(p).Some? ==> canonical(canonical(p).value) == canonical(p)
    }
  }
}

=== FILE: profiles.dfy ===
/**
 * Discovery of the default Thunderbird profile (`find_default_thunderbird_profile`):
 * the first `Path=` entry of `~/.thunderbird/profiles.ini`, taken relative to
 * `~/.thunderbird`.
 */
module Profiles {
  import opened Wrappers
  import opened Text
  import opened Paths
  import opened Errors

  const ThunderbirdDir: string := "~/.thunderbird"
  const PathKey: string := "Path="

  /** `~/.thunderbird/profiles.ini`, resolved through `fullpath` before it is read. */
  function ProfilesIni(): string {
    Join(ThunderbirdDir, "profiles.ini")
  }

  /**
   * The profile directory name in a `profiles.ini` document: the text between
   * the first `Path=` and the next newline. A missing key, a missing newline or
   * an empty value all yield the same error.
   */
  function DefaultProfileName(doc: string): (r: Result<string, Error>)
    ensures r.Success? ==> r.value != [] && '\n' !in r.value
    ensures r.Success? ==> !Absent(doc, PathKey)
    ensures r.Failure? ==> r.error == NoDefaultProfile
  {
    var after := match SplitOnce(doc, PathKey)
      case Some(parts) => parts.1
      case None => "";
    var name := match SplitOnce(after, "\n")
      case Some(parts) =>
        assert Absent(parts.0, "\n") by {
          assert parts.0 + "\n"[..0] == parts.0;
        }
        assert forall k :: 0 <= k < |parts.0| && parts.0[k] == '\n' ==> OccursAt(parts.0, "\n", k);
        parts.0
      case None => "";
    if name == [] then Failure(NoDefaultProfile) else Success(name)
  }

  /** `Path=` cannot begin inside a text free of it and end inside a following `Path=`. */
  lemma FirstPathKey(head: string, rest: string)
    requires Absent(head, PathKey)
    ensures Find(head + PathKey + rest, PathKey) == Some(|head|)
  {
    var doc := head + PathKey + rest;
    var i0 := |head|;
    assert doc[i0..i0 + 5] == PathKey;
    assert OccursAt(doc, PathKey, i0);
    forall j | 0 <= j < i0
      ensures !OccursAt(doc, PathKey, j)
    {
      if j + 5 <= i0 {
        assert doc[j..j + 5] == head[j..j + 5];
        assert !OccursAt(head, PathKey, j);
      } else {
        assert doc[j + 4] == PathKey[j + 4 - i0];
        assert PathKey[j + 4 - i0] != '=';
        assert doc[j..j + 5][4] == doc[j + 4];
      }
    }
  }

  /** The value of the first `Path=` line is the profile name. */
  lemma DefaultProfileNameFound(head: string, name: string, tail: string)
    requires Absent(head, PathKey)
    requires name != [] && '\n' !in name
    ensures DefaultProfileName(head + PathKey + name + "\n" + tail) == Success(name)
  {
    var rest := name + "\n" + tail;
    assert head + PathKey + name + "\n" + tail == head + PathKey + rest;
    FirstPathKey(head, rest);
    assert (head + PathKey + rest)[|head| + 5..] == rest;
    SplitOnceAtChar(name, '\n', tail);
  }

  /** Without any `Path=` there is no default profile. */
  lemma DefaultProfileNameMissing(doc: string)
    requires Absent(doc, PathKey)
    ensures DefaultProfileName(doc) == Failure(NoDefaultProfile)
  {
  }

  /** A first `Path=` whose line never ends, or whose value is empty, gives no profile. */
  lemma DefaultProfileNameUnusable(head: string, rest: string)
    requires Absent(head, PathKey)
    requires '\n' !in rest || (|rest| > 0 && rest[0] == '\n')
    ensures DefaultProfileName(head + PathKey + rest) == Failure(NoDefaultProfile)
  {
    FirstPathKey(head, rest);
    assert (head + PathKey + rest)[|head| + 5..] == rest;
    if '\n' !in rest {
      assert Absent(rest, "\n") by {
        forall k | 0 <= k < |rest| ensures !OccursAt(rest, "\n", k) {
          assert rest[k..k + 1] == [rest[k]];
        }
      }
    } else {
      assert rest == [] + ['\n'] + rest[1..];
      SplitOnceAtChar([], '\n', rest[1..]);
    }
  }

  /**
   * `find_default_thunderbird_profile`: resolve and read `profiles.ini`, then
   * join the profile name onto `~/.thunderbird` (the result is not resolved).
   */
  function FindDefaultProfile(fs: FileSystem): (r: Result<string, Error>)
    ensures fs.canonical(ProfilesIni()).None? ==> r == Failure(ProfilesIniNotFound)
    ensures r.Failure? ==> r.error.IsProfileError()
    ensures r.Success? ==> exists name :: name != [] && '\n' !in name && r.value == Join(ThunderbirdDir, name)
    ensures fs.canonical(ProfilesIni()).Some? && fs.read(fs.canonical(ProfilesIni()).value).None? ==>
      r == Failure(ProfilesIniUnreadable(fs.canonical(ProfilesIni()).value))
    ensures r.Success? ==>
      && fs.canonical(ProfilesIni()).Some?
      && fs.read(fs.canonical(ProfilesIni()).value).Some?
      && DefaultProfileName(fs.read(fs.canonical(ProfilesIni()).value).value).Success?
  {
    match fs.canonical(ProfilesIni())
    case None => Failure(ProfilesIniNotFound)
    case Some(path) =>
      match fs.read(path)
      case None => Failure(ProfilesIniUnreadable(path))
      case Some(doc) =>
        var name :- DefaultProfileName(doc);
        Success(Join(ThunderbirdDir, name))
  }

  /**
   * A readable `profiles.ini` without a usable first `Path=` value gives no
   * default profile: discovery fails rather than inventing one.
   */
  lemma FindDefaultProfileUnusable(fs: FileSystem)
    requires fs.canonical(ProfilesIni()).Some?
    requires fs.read(fs.canonical(ProfilesIni()).value).Some?
    requires DefaultProfileName(fs.read(fs.canonical(ProfilesIni()).value).value).Failure?
    ensures FindDefaultProfile(fs) == Failure(NoDefaultProfile)
  {
  }

  /** A readable `profiles.ini` whose first `Path=` names `name` selects `~/.thunderbird/<name>`. */
  lemma FindDefaultProfileFromIni(fs: FileSystem, head: string, name: string, tail: string)
    requires fs.canonical(ProfilesIni()).Some?
    requires fs.read(fs.canonical(ProfilesIni()).value) == Some(head + PathKey + name + "\n" + tail)
    requires Absent(head, PathKey)
    requires name != [] && '\n' !in name && name[0] != '/'
    ensures FindDefaultProfile(fs) == Success(ThunderbirdDir + "/" + name)
  {
    DefaultProfileNameFound(head, name, tail);
  }
}

=== FILE: radix.dfy ===
/**
 * Integer text conversions: Rust's `u32::from_str_radix(_, 16)` and the
 * decimal rendering of `u32::to_string`.
 */
module Radix {
  import opened Wrappers

  /** `u32::MAX`. */
  const U32_MAX: nat := 0xFFFF_FFFF

  /** The value of `c` as a hexadecimal digit (`char::to_digit(16)`): `0-9`, `a-f`, `A-F`. */
  function HexDigit(c: char): (r: Option<nat>)
    ensures r.Some? ==> r.value < 16
  {
    if '0' <= c <= '9' then Some(c as nat - '0' as nat)
    else if 'a' <= c <= 'f' then Some(c as nat - 'a' as nat + 10)
    else if 'A' <= c <= 'F' then Some(c as nat - 'A' as nat + 10)
    else None
  }

  predicate AllHex(ds: string) {
    forall k :: 0 <= k < |ds| ==> HexDigit(ds[k]).Some?
  }

  /** The number the hexadecimal digits `ds` denote, most significant first. */
  function HexValue(ds: string): nat
    requires AllHex(ds)
  {
    if ds == [] then 0
    else HexValue(ds[..|ds| - 1]) * 16 + HexDigit(ds[|ds| - 1]).value
  }

  /**
   * The digits `u32::from_str_radix` reads: the text after one leading `+`,
   * or the whole text. An unsigned type takes no `-`, so a leading `-` stays
   * and is then no digit.
   */
  function Digits(src: string): (ds: string)
    ensures src == (if |src| > 0 && src[0] == '+' then "+" else "") + ds
  {
    if |src| > 0 && src[0] == '+' then src[1..] else src
  }

  /**
   * `u32::from_str_radix(src, 16)`, with `None` for every error: an empty
   * string, a lone sign, a character that is not a hexadecimal digit after an
   * optional leading `+`, or a value above `u32::MAX`.
   */
  function ParseHexU32(src: string): (r: Option<nat>)
    ensures r.Some? ==> r.value <= U32_MAX
    ensures r.Some? ==> src != [] && src != "+"
    ensures r.Some? ==> forall k :: 0 < k < |src| ==> HexDigit(src[k]).Some?
  {
    if src == [] || src == "+" || src == "-" then None
    else
      var digits := if src[0] == '+' then src[1..] else src;
      if !AllHex(digits) then None
      else if HexValue(digits) > U32_MAX then None
      else Some(HexValue(digits))
  }

  /**
   * What `ParseHexU32` accepts and yields: it succeeds exactly when the digits
   * after an optional `+` are a non-empty hexadecimal run worth at most
   * `u32::MAX`, and then yields their value.
   */
  lemma ParseHexU32Exact(src: string)
    ensures ParseHexU32(src).Some? <==> Digits(src) != [] && AllHex(Digits(src)) && HexValue(Digits(src)) <= U32_MAX
    ensures ParseHexU32(src).Some? ==> AllHex(Digits(src)) && ParseHexU32(src).value == HexValue(Digits(src))
  {
  }

  /** The hexadecimal digit for `d`, upper case. */
  function HexChar(d: nat): (c: char)
    requires d < 16
    ensures HexDigit(c) == Some(d)
  {
    "0123456789ABCDEF"[d]
  }

  /** Hexadecimal numeral of `n`, upper case, without leading zeros. */
  function ToHex(n: nat): (r: string)
    ensures r != [] && AllHex(r)
    ensures |r| > 1 ==> r[0] != '0'
  {
    if n < 16 then [HexChar(n)]
    else
      var r := ToHex(n / 16) + [HexChar(n % 16)];
      assert forall k :: 0 <= k < |r| - 1 ==> r[k] == ToHex(n / 16)[k];
      r
  }

  lemma {:induction false} HexValueOfToHex(n: nat)
    ensures HexValue(ToHex(n)) == n
  {
    if n >= 16 {
      var r := ToHex(n);
      assert r[..|r| - 1] == ToHex(n / 16);
      HexValueOfToHex(n / 16);
    }
  }

  /** A non-empty run of hexadecimal digits parses to its value, with or without a leading `+`. */
  lemma ParseHexDigits(ds: string)
    requires ds != [] && AllHex(ds) && HexValue(ds) <= U32_MAX
    ensures ParseHexU32(ds) == Some(HexValue(ds))
    ensures ParseHexU32("+" + ds) == Some(HexValue(ds))
  {
    assert HexDigit(ds[0]).Some?;
    assert ds != "+" && ds != "-";
    var p := "+" + ds;
    assert p[0] == '+' && p[1..] == ds;
    assert p != "+" && p != "-" by {
      assert |p| >= 2;
    }
  }

  /** Every `u32` written in hexadecimal parses back, with or without a leading `+`. */
  lemma ParseHexRoundTrip(n: nat)
    requires n <= U32_MAX
    ensures ParseHexU32(ToHex(n)) == Some(n)
    ensures ParseHexU32("+" + ToHex(n)) == Some(n)
  {
    HexValueOfToHex(n);
    ParseHexDigits(ToHex(n));
  }

  /** Leading zeros do not change the parsed value. */
  lemma {:induction false} HexValueLeadingZero(ds: string)
    requires AllHex(ds)
    ensures AllHex("0" + ds) && HexValue("0" + ds) == HexValue(ds)
  {
    var z := "0" + ds;
    assert forall k :: 1 <= k < |z| ==> z[k] == ds[k - 1];
    if ds != [] {
      assert z[..|z| - 1] == "0" + ds[..|ds| - 1];
      HexValueLeadingZero(ds[..|ds| - 1]);
    }
  }

  /** A token with a non-digit after its optional `+` does not parse: `Z`, `-5` and `+Z` alike. */
  lemma ParseHexRejectsNonDigit(src: string, k: nat)
    requires k < |Digits(src)| && HexDigit(Digits(src)[k]).None?
    ensures ParseHexU32(src) == None
  {
    assert !AllHex(Digits(src));
    ParseHexU32Exact(src);
  }

  /** A value above `u32::MAX` does not parse, however it is written, with or without a leading `+`. */
  lemma ParseHexRejectsOverflow(src: string)
    requires AllHex(Digits(src)) && HexValue(Digits(src)) > U32_MAX
    ensures ParseHexU32(src) == None
  {
    ParseHexU32Exact(src);
  }

  /** The decimal digit for `d`. */
  function DigitChar(d: nat): (c: char)
    requires d < 10
    ensures '0' <= c <= '9' && c as nat - '0' as nat == d
  {
    "0123456789"[d]
  }

  predicate AllDigits(s: string) {
    forall k :: 0 <= k < |s| ==> '0' <= s[k] <= '9'
  }

  /** The number the decimal digits `s` denote, most significant first. */
  function DecimalValue(s: string): nat
    requires AllDigits(s)
  {
    if s == [] then 0
    else DecimalValue(s[..|s| - 1]) * 10 + (s[|s| - 1] as nat - '0' as nat)
  }

  /** `to_string` of an unsigned integer: its decimal numeral without leading zeros. */
  function Decimal(n: nat): (r: string)
    ensures r != [] && AllDigits(r)
    ensures |r| > 1 ==> r[0] != '0'
  {
    if n < 10 then [DigitChar(n)]
    else
      var r := Decimal(n / 10) + [DigitChar(n % 10)];
      assert forall k :: 0 <= k < |r| - 1 ==> r[k] == Decimal(n / 10)[k];
      r
  }

  /** Reading a decimal numeral back gives the number that was written. */
  lemma {:induction false} DecimalRoundTrip(n: nat)
    ensures DecimalValue(Decimal(n)) == n
  {
    if n >= 10 {
      var r := Decimal(n);
      assert r[..|r| - 1] == Decimal(n / 10);
      DecimalRoundTrip(n / 10);
    }
  }

  /** Distinct numbers have distinct decimal numerals. */
  lemma DecimalInjective(m: nat, n: nat)
    requires Decimal(m) == Decimal(n)
    ensures m == n
  {
    DecimalRoundTrip(m);
    DecimalRoundTrip(n);
  }
}

=== FILE: report.dfy ===
/**
 * Counting and output (the end of `main`): each mailbox's unread count in
 * list order, optional per-file location lines, and the total line with its
 * prefix, suffix, zero suppression, trimming and final newline.
 */
module Report {
  import opened Wrappers
  import opened Text
  import opened Radix
  import opened Paths
  import opened Errors
  import opened Config
  import opened Mork

  /** What a run leaves behind: the text written to standard output and the error it ends with, if any. */
  datatype Exit = Exit(stdout: string, error: Option<Error>)

  /** `total_count += count` on `u32` in a release build: addition modulo 2^32. */
  function WrappingAdd(a: nat, b: nat): (r: nat)
    requires a <= U32_MAX && b <= U32_MAX
    ensures r <= U32_MAX
    ensures a + b <= U32_MAX ==> r == a + b
    ensures a + b > U32_MAX ==> r == a + b - (U32_MAX + 1)
  {
    (a + b) % (U32_MAX + 1)
  }

  predicate AllU32(cs: seq<nat>) {
    forall i :: 0 <= i < |cs| ==> cs[i] <= U32_MAX
  }

  /** The exact sum of the counts. */
  function Sum(cs: seq<nat>): nat {
    if cs == [] then 0 else Sum(cs[..|cs| - 1]) + cs[|cs| - 1]
  }

  /** The `u32` running total after adding the counts in order. */
  function WrappingSum(cs: seq<nat>): (r: nat)
    requires AllU32(cs)
    ensures r <= U32_MAX
  {
    if cs == [] then 0 else WrappingAdd(WrappingSum(cs[..|cs| - 1]), cs[|cs| - 1])
  }

  /** However far it wraps, the running total is the true sum modulo 2^32. */
  lemma {:induction false} WrappingSumModulo(cs: seq<nat>)
    requires AllU32(cs)
    ensures WrappingSum(cs) == Sum(cs) % (U32_MAX + 1)
  {
    if cs != [] {
      var init := cs[..|cs| - 1];
      assert AllU32(init);
      WrappingSumModulo(init);
      ModAdd(Sum(init), cs[|cs| - 1]);
    }
  }

  /** Reducing the running total first does not change the remainder of the sum modulo 2^32. */
  lemma ModAdd(x: nat, y: nat)
    ensures (x % (U32_MAX + 1) + y) % (U32_MAX + 1) == (x + y) % (U32_MAX + 1)
  {
    var m := U32_MAX + 1;
    var q := x / m;
    assert x == q * m + x % m;
    assert x + y == (x % m + y) + q * m;
  }

  /** While the true sum fits in a `u32`, the running total is exactly that sum. */
  lemma {:induction false} WrappingSumExact(cs: seq<nat>)
    requires AllU32(cs) && Sum(cs) <= U32_MAX
    ensures WrappingSum(cs) == Sum(cs)
  {
    if cs != [] {
      var init := cs[..|cs| - 1];
      assert AllU32(init);
      WrappingSumExact(init);
    }
  }

  /** Number of files, from the front, that can be read; counting stops at the first that cannot. */
  function LeadingReadable(files: seq<string>, fs: FileSystem): (k: nat)
    ensures k <= |files|
    ensures forall i :: 0 <= i < k ==> fs.read(files[i]).Some?
    ensures k < |files| ==> fs.read(files[k]).None?
  {
    if files == [] || fs.read(files[0]).None? then 0
    else 1 + LeadingReadable(files[1..], fs)
  }

  /** The unread count of a readable mailbox file. */
  function FileCount(f: string, fs: FileSystem): (c: nat)
    requires fs.read(f).Some?
    ensures c <= U32_MAX
  {
    CountUnread(fs.read(f).value)
  }

  /** The unread count of each of a list of readable files, in order. */
  function CountsOf(files: seq<string>, fs: FileSystem): (cs: seq<nat>)
    requires forall i :: 0 <= i < |files| ==> fs.read(files[i]).Some?
    ensures |cs| == |files| && AllU32(cs)
    ensures forall i :: 0 <= i < |files| ==> cs[i] == FileCount(files[i], fs)
  {
    seq(|files|, i requires 0 <= i < |files| => FileCount(files[i], fs))
  }

  /**
   * Whether a file's location line is printed: only with `location` set, and
   * then for every file except one with no unread mail while `no_zero` is set.
   */
  function ShowsLocation(count: nat, location: bool, noZero: bool): (shown: bool)
    ensures !location ==> !shown
    ensures location && count > 0 ==> shown
    ensures location && count == 0 ==> (shown <==> !noZero)
  {
    location && !(noZero && count == 0)
  }

  /** `println!("{count} {}", mailbox.display())`. */
  function LocationLine(count: nat, path: string): string {
    Decimal(count) + " " + path + "\n"
  }

  /** A location line is the count in decimal without leading zeros, a space, the path and a newline. */
  lemma LocationLineParts(count: nat, path: string)
    ensures var r := LocationLine(count, path); var k := |r| - |path| - 2;
      && 0 < k && AllDigits(r[..k]) && DecimalValue(r[..k]) == count && (k > 1 ==> r[0] != '0')
      && r[k] == ' ' && r[k + 1..|r| - 1] == path && r[|r| - 1] == '\n'
  {
    var d := Decimal(count);
    var r := LocationLine(count, path);
    assert r[..|d|] == d;
    DecimalRoundTrip(count);
  }

  /** The location lines for files and their counts, in list order. */
  function LocationLines(paths: seq<string>, counts: seq<nat>, location: bool, noZero: bool): string
    requires |paths| == |counts|
  {
    if paths == [] then ""
    else
      var n := |paths| - 1;
      LocationLines(paths[..n], counts[..n], location, noZero)
      + (if ShowsLocation(counts[n], location, noZero) then LocationLine(counts[n], paths[n]) else "")
  }

  /** Nothing is printed per file exactly when no file's location line is shown. */
  lemma {:induction false} LocationLinesEmpty(paths: seq<string>, counts: seq<nat>, location: bool, noZero: bool)
    requires |paths| == |counts|
    ensures LocationLines(paths, counts, location, noZero) == ""
        <==> forall i :: 0 <= i < |paths| ==> !ShowsLocation(counts[i], location, noZero)
  {
    if paths != [] {
      var n := |paths| - 1;
      LocationLinesEmpty(paths[..n], counts[..n], location, noZero);
      assert forall i :: 0 <= i < n ==> counts[..n][i] == counts[i];
    }
  }

  /** Without `location`, no file's location line is printed. */
  lemma {:induction false} LocationLinesOff(paths: seq<string>, counts: seq<nat>, noZero: bool, rest: string)
    requires |paths| == |counts|
    ensures LocationLines(paths, counts, false, noZero) == ""
    ensures LocationLines(paths, counts, false, noZero) + rest == rest
  {
    if paths != [] {
      var n := |paths| - 1;
      LocationLinesOff(paths[..n], counts[..n], noZero, rest);
    }
    assert "" + rest == rest;
  }

  /** The `u32` total after counting the first `i` files, all readable. */
  function TotalAfter(files: seq<string>, fs: FileSystem, i: nat): nat
    requires i <= LeadingReadable(files, fs)
  {
    WrappingSum(CountsOf(files[..i], fs))
  }

  /** The location lines printed for the first `i` files, all readable. */
  function LinesAfter(files: seq<string>, fs: FileSystem, i: nat, location: bool, noZero: bool): string
    requires i <= LeadingReadable(files, fs)
  {
    LocationLines(files[..i], CountsOf(files[..i], fs), location, noZero)
  }

  /** The counts of one more file are the earlier counts followed by that file's count. */
  lemma CountsOfSnoc(files: seq<string>, fs: FileSystem, i: nat)
    requires i < LeadingReadable(files, fs)
    ensures var cs := CountsOf(files[..i + 1], fs);
      |cs| == i + 1 && cs[..i] == CountsOf(files[..i], fs) && cs[i] == FileCount(files[i], fs)
  {
    assert files[..i + 1][..i] == files[..i];
  }

  /** Reading one more file extends the running total and the location lines by that file alone. */
  lemma CountStep(files: seq<string>, fs: FileSystem, i: nat, location: bool, noZero: bool)
    requires i < LeadingReadable(files, fs)
    ensures TotalAfter(files, fs, i + 1) == WrappingAdd(TotalAfter(files, fs, i), FileCount(files[i], fs))
    ensures LinesAfter(files, fs, i + 1, location, noZero)
         == LinesAfter(files, fs, i, location, noZero)
            + (if ShowsLocation(FileCount(files[i], fs), location, noZero) then LocationLine(FileCount(files[i], fs), files[i]) else "")
  {
    CountsOfSnoc(files, fs, i);
    assert files[..i + 1][..i] == files[..i];
  }

  /** Before any file is read the total is 0 and nothing is printed. */
  lemma CountStart(files: seq<string>, fs: FileSystem, location: bool, noZero: bool)
    ensures TotalAfter(files, fs, 0) == 0 && LinesAfter(files, fs, 0, location, noZero) == ""
  {
    assert files[..0] == [];
  }

  /**
   * The loop of `main` over the mailbox files: sums the counts as a `u32`
   * and collects the location lines, stopping at the first file that cannot
   * be read.
   */
  method CountMailboxes(files: seq<string>, fs: FileSystem, location: bool, noZero: bool)
    returns (total: nat, lines: string, failure: Option<Error>)
    ensures var k := LeadingReadable(files, fs);
      && total == TotalAfter(files, fs, k)
      && lines == LinesAfter(files, fs, k, location, noZero)
      && failure == (if k < |files| then Some(MailboxUnreadable(files[k])) else None)
  {
    total := 0;
    lines := "";
    failure := None;
    CountStart(files, fs, location, noZero);
    var i := 0;
    while i < |files|
      invariant i <= LeadingReadable(files, fs)
      invariant total == TotalAfter(files, fs, i)
      invariant lines == LinesAfter(files, fs, i, location, noZero)
    {
      var result := MailboxCountUnread(files[i], fs);
      if result.Failure? {
        failure := Some(result.error);
        return;
      }
      CountStep(files, fs, i, location, noZero);
      total := WrappingAdd(total, result.value);
      if ShowsLocation(result.value, location, noZero) {
        lines := lines + LocationLine(result.value, files[i]);
      }
      i := i + 1;
    }
  }

  /** The printed total: empty when zeros are suppressed and the total is zero, else its decimal numeral. */
  function CountText(total: nat, noZero: bool): (r: string)
    ensures r == [] <==> noZero && total == 0
    ensures r != [] ==> AllDigits(r) && DecimalValue(r) == total
    ensures |r| > 1 ==> r[0] != '0'
  {
    if noZero && total == 0 then "" else (DecimalRoundTrip(total); Decimal(total))
  }

  /** `format!("{before}{output_total_count}{after}")`. */
  function Framed(s: Settings, total: nat): string {
    s.before.GetOr("") + CountText(total, s.noZero.GetOr(false)) + s.after.GetOr("")
  }

  /**
   * The framed total is `before`, then the total's numeral, or nothing
   * between the two when zeros are suppressed and the total is zero, then
   * `after`.
   */
  lemma FramedParts(s: Settings, total: nat)
    ensures var r := Framed(s, total); var b := s.before.GetOr(""); var a := s.after.GetOr("");
      && |b| + |a| <= |r| && r[..|b|] == b && r[|r| - |a|..] == a
      && (|r| == |b| + |a| <==> s.noZero == Some(true) && total == 0)
      && (|r| > |b| + |a| ==> AllDigits(r[|b|..|r| - |a|]) && DecimalValue(r[|b|..|r| - |a|]) == total)
  {
    var b := s.before.GetOr("");
    var a := s.after.GetOr("");
    var c := CountText(total, s.noZero.GetOr(false));
    var r := Framed(s, total);
    assert r[..|b|] == b && r[|r| - |a|..] == a && r[|b|..|r| - |a|] == c;
  }

  /** The framed total, with surrounding white space removed exactly when `trim` is set. */
  function TotalText(s: Settings, total: nat): (r: string)
    ensures s.trim != Some(true) ==> r == Framed(s, total)
    ensures s.trim == Some(true) ==> Trimmed(r) && PaddedAt(Framed(s, total), r, LeadingSpace(Framed(s, total)))
  {
    var f := Framed(s, total);
    if s.trim.GetOr(false) then
      var r := Text.Trim(f);
      assert Trimmed(r) && PaddedAt(f, r, LeadingSpace(f));
      r
    else f
  }

  /** The total line: the total text followed by a newline unless `no_newline` is set. */
  function TotalLine(s: Settings, total: nat): (r: string)
    ensures s.noNewline == Some(true) ==> r == TotalText(s, total)
    ensures s.noNewline != Some(true) ==> |r| > 0 && r[|r| - 1] == '\n' && r[..|r| - 1] == TotalText(s, total)
  {
    var t := TotalText(s, total);
    if s.noNewline.GetOr(false) then t
    else
      assert (t + "\n")[..|t|] == t;
      t + "\n"
  }

  /**
   * The counting and output stage for resolved settings: location lines for
   * the files read, then either the error for the first unreadable file or
   * the total line.
   */
  function Report(s: Settings, fs: FileSystem): (r: Exit)
    ensures r.error.Some? <==> exists i :: 0 <= i < |s.files.GetOr([])| && fs.read(s.files.GetOr([])[i]).None?
    ensures r.error.Some? ==> r.error.value.MailboxUnreadable?
    ensures var files := s.files.GetOr([]);
      r.error.Some? ==> r.stdout == LinesAfter(files, fs, LeadingReadable(files, fs), s.location.GetOr(false), s.noZero.GetOr(false))
  {
    var files := s.files.GetOr([]);
    var k := LeadingReadable(files, fs);
    var counts := CountsOf(files[..k], fs);
    var lines := LocationLines(files[..k], counts, s.location.GetOr(false), s.noZero.GetOr(false));
    if k < |files| then Exit(lines, Some(MailboxUnreadable(files[k])))
    else
      assert files[..k] == files;
      Exit(lines + TotalLine(s, WrappingSum(counts)), None)
  }

  /** When every file can be read, the output is the location lines followed by the total line. */
  lemma ReportAllReadable(s: Settings, fs: FileSystem)
    requires forall i :: 0 <= i < |s.files.GetOr([])| ==> fs.read(s.files.GetOr([])[i]).Some?
    ensures var files := s.files.GetOr([]);
      var counts := CountsOf(files, fs);
      Report(s, fs) == Exit(LocationLines(files, counts, s.location.GetOr(false), s.noZero.GetOr(false))
                            + TotalLine(s, WrappingSum(counts)), None)
  {
    var files := s.files.GetOr([]);
    assert LeadingReadable(files, fs) == |files|;
    assert files[..|files|] == files;
  }

  /** The settings of the two-mailbox example: two files, framing text, and every output switch off. */
  predicate ExampleSettings(s: Settings) {
    && s.files == Some(["/a.msf", "/b.msf"])
    && s.before == Some("Unread: ") && s.after == Some(" msgs")
    && !s.noZero.GetOr(false) && !s.noNewline.GetOr(false)
    && !s.trim.GetOr(false) && !s.location.GetOr(false)
  }

  lemma ExampleTotalLine(s: Settings)
    requires ExampleSettings(s)
    ensures TotalLine(s, 15) == "Unread: 15 msgs\n"
  {
    assert Decimal(15) == "15" by {
      assert Decimal(1) == "1";
    }
    assert CountText(15, false) == "15";
  }

  lemma ExampleCells()
    ensures CountUnread("(^A2=A)") == 10 && CountUnread("(^A2=5)") == 5
  {
    assert "(^A2=A)" == "" + UnreadMarker + ToHex(10) + ")" + "";
    CountUnreadLastWins("", 10, "");
    assert "(^A2=5)" == "" + UnreadMarker + ToHex(5) + ")" + "";
    CountUnreadLastWins("", 5, "");
  }

  lemma ExampleFileCounts(fs: FileSystem)
    requires fs.read("/a.msf") == Some("(^A2=A)") && fs.read("/b.msf") == Some("(^A2=5)")
    ensures FileCount("/a.msf", fs) == 10 && FileCount("/b.msf", fs) == 5
  {
    ExampleCells();
  }

  /** The total of two readable files is the `u32` sum of their counts. */
  lemma TwoFileTotal(f1: string, f2: string, fs: FileSystem)
    requires fs.read(f1).Some? && fs.read(f2).Some?
    ensures WrappingSum(CountsOf([f1, f2], fs)) == WrappingAdd(FileCount(f1, fs), FileCount(f2, fs))
  {
    var cs := CountsOf([f1, f2], fs);
    var init := cs[..1];
    assert |init| == 1 && init[0] == FileCount(f1, fs);
    assert WrappingSum(init[..0]) == 0;
    assert WrappingSum(init) == FileCount(f1, fs);
  }

  /** With locations off and every file readable, the output is the total line alone. */
  lemma ReportQuiet(s: Settings, fs: FileSystem)
    requires forall i :: 0 <= i < |s.files.GetOr([])| ==> fs.read(s.files.GetOr([])[i]).Some?
    requires !s.location.GetOr(false)
    ensures Report(s, fs) == Exit(TotalLine(s, WrappingSum(CountsOf(s.files.GetOr([]), fs))), None)
  {
    var files := s.files.GetOr([]);
    var counts := CountsOf(files, fs);
    ReportAllReadable(s, fs);
    LocationLinesOff(files, counts, s.noZero.GetOr(false), TotalLine(s, WrappingSum(counts)));
  }

  /** Two readable mailboxes with locations off: the output is the total line for the `u32` sum of their counts. */
  lemma ReportTwoFiles(s: Settings, fs: FileSystem, f1: string, f2: string)
    requires s.files == Some([f1, f2]) && !s.location.GetOr(false)
    requires fs.read(f1).Some? && fs.read(f2).Some?
    ensures Report(s, fs) == Exit(TotalLine(s, WrappingAdd(FileCount(f1, fs), FileCount(f2, fs))), None)
  {
    var files := [f1, f2];
    assert s.files.GetOr([]) == files;
    assert forall i :: 0 <= i < |files| ==> fs.read(files[i]).Some?;
    ReportQuiet(s, fs);
    TwoFileTotal(f1, f2, fs);
  }

  /** Two mailboxes holding 10 (`A`) and 5 unread messages, framed by `Unread: ` and ` msgs`. */
  lemma ReportExample(s: Settings, fs: FileSystem)
    requires ExampleSettings(s)
    requires fs.read("/a.msf") == Some("(^A2=A)") && fs.read("/b.msf") == Some("(^A2=5)")
    ensures Report(s, fs) == Exit("Unread: 15 msgs\n", None)
  {
    ExampleFileCounts(fs);
    ReportTwoFiles(s, fs, "/a.msf", "/b.msf");
    ExampleTotalLine(s);
  }

  /** With zeros suppressed, no framing text and a zero total, the total line is a bare newline, or nothing at all. */
  lemma ZeroTotalLine(s: Settings)
    requires s.noZero == Some(true) && s.before.GetOr("") == "" && s.after.GetOr("") == ""
    ensures TotalLine(s, 0) == if s.noNewline == Some(true) then "" else "\n"
  {
    assert Framed(s, 0) == "";
    assert Text.Trim("") == "";
  }

  /** With zeros suppressed, files without unread mail print no location line. */
  lemma ZeroCountsHidden(paths: seq<string>, counts: seq<nat>, location: bool)
    requires |paths| == |counts|
    requires forall i :: 0 <= i < |counts| ==> counts[i] == 0
    ensures LocationLines(paths, counts, location, true) == ""
  {
    forall i | 0 <= i < |paths|
      ensures !ShowsLocation(counts[i], location, true)
    {
    }
    LocationLinesEmpty(paths, counts, location, true);
  }

  /** Files without unread mail, with zeros suppressed: a zero total and no location lines. */
  lemma AllZeroParts(files: seq<string>, fs: FileSystem, location: bool)
    requires forall i :: 0 <= i < |files| ==> fs.read(files[i]).Some? && FileCount(files[i], fs) == 0
    ensures WrappingSum(CountsOf(files, fs)) == 0
    ensures LocationLines(files, CountsOf(files, fs), location, true) == ""
  {
    var counts := CountsOf(files, fs);
    assert forall i :: 0 <= i < |counts| ==> counts[i] == 0;
    AllZeroSum(counts);
    ZeroCountsHidden(files, counts, location);
  }

  /** With zeros suppressed and nothing unread, the output is a bare newline, or nothing at all, whether or not locations are on. */
  lemma ReportAllZero(s: Settings, fs: FileSystem)
    requires s.noZero == Some(true) && s.before.GetOr("") == "" && s.after.GetOr("") == ""
    requires forall i :: 0 <= i < |s.files.GetOr([])| ==>
      fs.read(s.files.GetOr([])[i]).Some? && FileCount(s.files.GetOr([])[i], fs) == 0
    ensures Report(s, fs) == Exit(if s.noNewline == Some(true) then "" else "\n", None)
  {
    var files := s.files.GetOr([]);
    ReportAllReadable(s, fs);
    AllZeroParts(files, fs, s.location.GetOr(false));
    ZeroTotalLine(s);
  }

  lemma {:induction false} AllZeroSum(cs: seq<nat>)
    requires forall i :: 0 <= i < |cs| ==> cs[i] == 0
    ensures AllU32(cs) && WrappingSum(cs) == 0
  {
    if cs != [] {
      AllZeroSum(cs[..|cs| - 1]);
    }
  }
}

=== FILE: resolve.dfy ===
/**
 * File-system dependent resolution of the merged settings: the profile
 * directory, input files taken relative to it
 * (`update_relative_files_with_profile`), and mailbox directories replaced by
 * their default inbox file (`update_directory_files_with_default_filename`).
 */
module Resolve {
  import opened Wrappers
  import opened Paths
  import opened Errors
  import opened Config
  import opened Profiles

  /**
   * The profile directory: an explicit `profile` resolved with `fullpath`, an
   * error naming it when it does not resolve, or else the discovered default.
   */
  function ResolveProfile(s: Settings, fs: FileSystem): (r: Result<string, Error>)
    ensures s.profile.Some? ==> (r.Failure? <==> fs.canonical(s.profile.value).None?)
    ensures s.profile.Some? && r.Failure? ==> r.error == ProfileNotFound(s.profile.value)
    ensures s.profile.Some? && r.Success? ==> Some(r.value) == fs.canonical(s.profile.value)
    ensures s.profile.None? ==> r == FindDefaultProfile(fs)
    ensures r.Failure? ==> r.error.IsProfileError()
  {
    match s.profile
    case Some(p) =>
      (match fs.canonical(p)
       case Some(q) => Success(q)
       case None => Failure(ProfileNotFound(p)))
    case None => FindDefaultProfile(fs)
  }

  /**
   * One input file after anchoring at the profile: `f.push(fullpath(&profile.join(f)).unwrap_or_default())`.
   * A resolved path (absolute, as `canonicalize` gives) replaces `f`; when
   * nothing resolves the empty path is pushed, which keeps `f` up to a
   * trailing `/`.
   */
  function Anchor(profile: string, f: string, fs: FileSystem): (r: string)
    ensures fs.canonical(Join(profile, f)).Some? && IsAbsolute(fs.canonical(Join(profile, f)).value) ==>
      r == fs.canonical(Join(profile, f)).value
    ensures fs.canonical(Join(profile, f)).None? ==> r == f || r == f + "/"
  {
    JoinEmpty(f);
    Join(f, fs.canonical(Join(profile, f)).GetOr(""))
  }

  /**
   * `update_relative_files_with_profile`. A profile error comes first, even
   * when no files were given; then a missing file list is an error, while an
   * empty one is not. On success only `files` changes: the same number of
   * entries in the same order, each anchored at the profile directory.
   */
  function UpdateRelativeFiles(s: Settings, fs: FileSystem): (r: Result<Settings, Error>)
    ensures ResolveProfile(s, fs).Failure? ==> r == Failure(ResolveProfile(s, fs).error)
    ensures ResolveProfile(s, fs).Success? && s.files.None? ==> r == Failure(NoInputFiles)
    ensures r.Success? <==> ResolveProfile(s, fs).Success? && s.files.Some?
    ensures r.Success? ==> r.value == s.(files := r.value.files)
    ensures r.Success? ==> r.value.files.Some? && |r.value.files.value| == |s.files.value|
    ensures r.Success? ==> forall i :: 0 <= i < |s.files.value| ==>
      r.value.files.value[i] == Anchor(ResolveProfile(s, fs).value, s.files.value[i], fs)
  {
    var profile :- ResolveProfile(s, fs);
    match s.files
    case None => Failure(NoInputFiles)
    case Some(files) =>
      var anchored := seq(|files|, i requires 0 <= i < |files| => Anchor(profile, files[i], fs));
      Success(s.(files := Some(anchored)))
  }

  /** With a real `canonicalize`, every entry that resolves under the profile is absolute afterwards. */
  lemma UpdateRelativeFilesResolvesEntries(s: Settings, fs: FileSystem, i: nat)
    requires fs.Resolves()
    requires UpdateRelativeFiles(s, fs).Success? && i < |s.files.value|
    requires fs.canonical(Join(ResolveProfile(s, fs).value, s.files.value[i])).Some?
    ensures IsAbsolute(UpdateRelativeFiles(s, fs).value.files.value[i])
  {
    var q := fs.canonical(Join(ResolveProfile(s, fs).value, s.files.value[i])).value;
    assert IsAbsolute(q);
  }

  /**
   * Anchoring an already anchored entry changes nothing, provided resolved
   * paths resolve to themselves and an entry that did not resolve still does
   * not once its trailing `/` is added.
   */
  lemma AnchorTwice(profile: string, f: string, fs: FileSystem)
    requires fs.Resolves() && fs.Settled()
    requires fs.canonical(Join(profile, f)).None? ==> fs.canonical(Join(profile, Join(f, ""))).None?
    ensures Anchor(profile, Anchor(profile, f, fs), fs) == Anchor(profile, f, fs)
  {
    var g := Anchor(profile, f, fs);
    match fs.canonical(Join(profile, f))
    case Some(q) =>
      assert IsAbsolute(q);
      assert g == q;
      assert Join(profile, q) == q;
      assert fs.canonical(q) == Some(q);
    case None =>
      assert g == Join(f, "");
      JoinEmpty(f);
      JoinEmpty(g);
  }

  /**
   * Resolving the file list a second time gives the same settings, under the
   * conditions of `AnchorTwice` for every entry.
   */
  lemma UpdateRelativeFilesIdempotent(s: Settings, fs: FileSystem)
    requires fs.Resolves() && fs.Settled()
    requires UpdateRelativeFiles(s, fs).Success?
    requires forall i :: 0 <= i < |s.files.value| ==>
      var f := s.files.value[i];
      fs.canonical(Join(ResolveProfile(s, fs).value, f)).None? ==>
        fs.canonical(Join(ResolveProfile(s, fs).value, Join(f, ""))).None?
    ensures UpdateRelativeFiles(UpdateRelativeFiles(s, fs).value, fs) == UpdateRelativeFiles(s, fs)
  {
    var t := UpdateRelativeFiles(s, fs).value;
    var profile := ResolveProfile(s, fs).value;
    assert t.profile == s.profile;
    assert ResolveProfile(t, fs) == ResolveProfile(s, fs);
    var u := UpdateRelativeFiles(t, fs).value;
    forall i | 0 <= i < |t.files.value|
      ensures u.files.value[i] == t.files.value[i]
    {
      AnchorTwice(profile, s.files.value[i], fs);
    }
    assert u.files.value == t.files.value;
  }

  /** The default inbox file names, in the order they are probed. */
  const Inbox: string := "Inbox.msf"
  const InboxUpper: string := "INBOX.msf"

  /**
   * A mailbox directory replaced by its inbox file: `Inbox.msf` when it is a
   * regular file, else `INBOX.msf` when that is, else the directory itself.
   * Anything that is not a directory is kept.
   */
  function ExpandDirectory(f: string, fs: FileSystem): (r: string)
    ensures r != f ==> fs.isDir(f) && fs.isFile(r)
    ensures r != f ==> r == Join(f, Inbox) || (r == Join(f, InboxUpper) && !fs.isFile(Join(f, Inbox)))
    ensures fs.isDir(f) && (fs.isFile(Join(f, Inbox)) || fs.isFile(Join(f, InboxUpper))) ==> r != f
  {
    if fs.isDir(f) then
      if fs.isFile(Join(f, Inbox)) then Join(f, Inbox)
      else if fs.isFile(Join(f, InboxUpper)) then Join(f, InboxUpper)
      else f
    else f
  }

  /**
   * The step as `update_directory_files_with_default_filename` writes it: the
   * probed path `f.join(name)` is pushed onto `f`. That is the corrected
   * step's result pushed onto `f`, which changes nothing for an absolute `f`
   * and appends `f` a second time for a relative one.
   */
  function ExpandDirectoryAsWritten(f: string, fs: FileSystem): (r: string)
    ensures !fs.isDir(f) ==> r == f
    ensures r == (if ExpandDirectory(f, fs) == f then f else Join(f, ExpandDirectory(f, fs)))
    ensures IsAbsolute(f) ==> r == ExpandDirectory(f, fs)
  {
    if fs.isDir(f) then
      if fs.isFile(Join(f, Inbox)) then Join(f, Join(f, Inbox))
      else if fs.isFile(Join(f, InboxUpper)) then Join(f, Join(f, InboxUpper))
      else f
    else f
  }

  /**
   * A relative directory that held `Inbox.msf` is replaced by a path that
   * does not exist: `Mail/x/` becomes `Mail/x/Mail/x/Inbox.msf`, while the
   * intended `Mail/x/Inbox.msf` is what the corrected step returns.
   */
  lemma ExpandDirectoryAsWrittenDoublesRelative()
    ensures var fs := FileSystem(p => None, p => None, p => p == "Mail/x/", p => p == "Mail/x/Inbox.msf");
      && ExpandDirectoryAsWritten("Mail/x/", fs) == "Mail/x/Mail/x/Inbox.msf"
      && !fs.isFile(ExpandDirectoryAsWritten("Mail/x/", fs))
      && ExpandDirectory("Mail/x/", fs) == "Mail/x/Inbox.msf"
      && fs.isFile(ExpandDirectory("Mail/x/", fs))
  {
    var fs := FileSystem(p => None, p => None, p => p == "Mail/x/", p => p == "Mail/x/Inbox.msf");
    assert Join("Mail/x/", Inbox) == "Mail/x/Inbox.msf";
    assert Join("Mail/x/", "Mail/x/Inbox.msf") == "Mail/x/Mail/x/Inbox.msf";
  }

  /** Directory expansion over the whole list, as the source does it: same length, same order, each entry on its own. */
  function ExpandDirectories(files: seq<string>, fs: FileSystem): (r: seq<string>)
    ensures |r| == |files|
    ensures forall i :: 0 <= i < |files| ==> r[i] == ExpandDirectoryAsWritten(files[i], fs)
  {
    seq(|files|, i requires 0 <= i < |files| => ExpandDirectoryAsWritten(files[i], fs))
  }

  /**
   * `update_directory_files_with_default_filename`; the source unwraps
   * `files`, so it must be set. Only directories change, and a changed entry
   * is the directory with its existing inbox file pushed onto it, which is
   * that inbox file itself when the directory is absolute.
   */
  function UpdateDirectoryFiles(s: Settings, fs: FileSystem): (r: Settings)
    requires s.files.Some?
    ensures r == s.(files := r.files) && r.files.Some?
    ensures |r.files.value| == |s.files.value|
    ensures forall i :: 0 <= i < |s.files.value| && !fs.isDir(s.files.value[i]) ==> r.files.value[i] == s.files.value[i]
    ensures forall i :: 0 <= i < |s.files.value| && r.files.value[i] != s.files.value[i] ==>
      var f := s.files.value[i];
      fs.isDir(f) && fs.isFile(ExpandDirectory(f, fs)) && r.files.value[i] == Join(f, ExpandDirectory(f, fs))
    ensures forall i :: 0 <= i < |s.files.value| && IsAbsolute(s.files.value[i]) ==>
      r.files.value[i] == ExpandDirectory(s.files.value[i], fs)
    ensures forall i :: 0 <= i < |s.files.value| ==>
      var f := s.files.value[i];
      fs.isDir(f) && (fs.isFile(Join(f, Inbox)) || fs.isFile(Join(f, InboxUpper))) ==>
        r.files.value[i] == Join(f, ExpandDirectory(f, fs))
  {
    s.(files := Some(ExpandDirectories(s.files.value, fs)))
  }
}

=== FILE: text.dfy ===
/**
 * String searching and trimming as Rust's `str` provides them: `find`/`rfind`
 * (through `split_once`/`rsplit_once`) and `trim`.
 */
module Text {
  import opened Wrappers

  /** `pat` occurs in `s` starting at index `i`. */
  predicate OccursAt(s: string, pat: string, i: int) {
    0 <= i && i + |pat| <= |s| && s[i..i + |pat|] == pat
  }

  /** `pat` occurs nowhere in `s`. */
  predicate Absent(s: string, pat: string) {
    forall i :: 0 <= i <= |s| ==> !OccursAt(s, pat, i)
  }

  /** First occurrence of `pat` in `s` at or after index `from`. */
  function FindFrom(s: string, pat: string, from: nat): (r: Option<nat>)
    requires from <= |s|
    ensures r.Some? ==> from <= r.value && OccursAt(s, pat, r.value)
    ensures r.Some? ==> forall k :: from <= k < r.value ==> !OccursAt(s, pat, k)
    ensures r.None? ==> forall k :: from <= k <= |s| ==> !OccursAt(s, pat, k)
    decreases |s| - from
  {
    if OccursAt(s, pat, from) then Some(from)
    else if from == |s| then None
    else FindFrom(s, pat, from + 1)
  }

  /** Last occurrence of `pat` in `s` starting at or before index `upto`. */
  function RFindFrom(s: string, pat: string, upto: nat): (r: Option<nat>)
    requires upto <= |s|
    ensures r.Some? ==> r.value <= upto && OccursAt(s, pat, r.value)
    ensures r.Some? ==> forall k :: r.value < k <= upto ==> !OccursAt(s, pat, k)
    ensures r.None? ==> forall k :: 0 <= k <= upto ==> !OccursAt(s, pat, k)
  {
    if OccursAt(s, pat, upto) then Some(upto)
    else if upto == 0 then None
    else RFindFrom(s, pat, upto - 1)
  }

  /** Rust's `str::find`: the index of the first occurrence. */
  function Find(s: string, pat: string): (r: Option<nat>)
    ensures r.Some? ==> OccursAt(s, pat, r.value)
    ensures r.Some? ==> forall k :: 0 <= k < r.value ==> !OccursAt(s, pat, k)
    ensures r.None? <==> Absent(s, pat)
  {
    FindFrom(s, pat, 0)
  }

  /** Rust's `str::rfind`: the index of the last occurrence. */
  function RFind(s: string, pat: string): (r: Option<nat>)
    ensures r.Some? ==> OccursAt(s, pat, r.value)
    ensures r.Some? ==> forall k :: r.value < k <= |s| ==> !OccursAt(s, pat, k)
    ensures r.None? <==> Absent(s, pat)
  {
    RFindFrom(s, pat, |s|)
  }

  /** Rust's `str::split_once`: the text before and after the first `pat`. */
  function SplitOnce(s: string, pat: string): (r: Option<(string, string)>)
    ensures r.None? <==> Absent(s, pat)
    ensures r.Some? ==> s == r.value.0 + pat + r.value.1
    ensures r.Some? && pat != [] ==> Absent(r.value.0 + pat[..|pat| - 1], pat)
  {
    match Find(s, pat)
    case None => None
    case Some(i) =>
      var head := s[..i];
      var tail := s[i + |pat|..];
      assert s == head + pat + tail by {
        assert s[i..i + |pat|] == pat;
      }
      assert pat != [] ==> Absent(head + pat[..|pat| - 1], pat) by {
        if pat != [] {
          var t := head + pat[..|pat| - 1];
          assert t == s[..i + |pat| - 1];
          forall k | 0 <= k <= |t|
            ensures !OccursAt(t, pat, k)
          {
            if k + |pat| <= |t| {
              assert k < i && !OccursAt(s, pat, k);
              assert t[k..k + |pat|] == s[k..k + |pat|];
            }
          }
        }
      }
      Some((head, tail))
  }

  /** Rust's `str::rsplit_once`: the text before and after the last `pat`. */
  function RSplitOnce(s: string, pat: string): (r: Option<(string, string)>)
    ensures r.None? <==> Absent(s, pat)
    ensures r.Some? ==> s == r.value.0 + pat + r.value.1
    ensures r.Some? && pat != [] ==> Absent(pat[1..] + r.value.1, pat)
  {
    match RFind(s, pat)
    case None => None
    case Some(i) =>
      var head := s[..i];
      var tail := s[i + |pat|..];
      assert s == head + pat + tail by {
        assert s[i..i + |pat|] == pat;
      }
      assert pat != [] ==> Absent(pat[1..] + tail, pat) by {
        if pat != [] {
          var t := pat[1..] + tail;
          assert t == s[i + 1..];
          forall k | 0 <= k <= |t|
            ensures !OccursAt(t, pat, k)
          {
            assert !OccursAt(s, pat, i + 1 + k);
            if k + |pat| <= |t| {
              assert s[i + 1 + k..i + 1 + k + |pat|] == t[k..k + |pat|];
            }
          }
        }
      }
      Some((head, tail))
  }

  /** A single-character separator is found right after a prefix free of it. */
  lemma SplitOnceAtChar(head: string, c: char, tail: string)
    requires c !in head
    ensures SplitOnce(head + [c] + tail, [c]) == Some((head, tail))
  {
    var s := head + [c] + tail;
    assert OccursAt(s, [c], |head|);
    forall k | 0 <= k < |head|
      ensures !OccursAt(s, [c], k)
    {
      assert s[k] == head[k];
    }
    var i := Find(s, [c]).value;
    assert i == |head|;
  }

  /** The character property `White_Space` of Unicode, which Rust's `char::is_whitespace` tests. */
  predicate IsWhiteSpace(c: char) {
    || ('\t' <= c <= '\r')
    || c == ' '
    || c == '\U{85}'
    || c == '\U{A0}'
    || c == '\U{1680}'
    || ('\U{2000}' <= c <= '\U{200A}')
    || c == '\U{2028}'
    || c == '\U{2029}'
    || c == '\U{202F}'
    || c == '\U{205F}'
    || c == '\U{3000}'
  }

  predicate AllWhiteSpace(s: string) {
    forall k :: 0 <= k < |s| ==> IsWhiteSpace(s[k])
  }

  /** `r` neither starts nor ends with white space. */
  predicate Trimmed(r: string) {
    r == [] || (!IsWhiteSpace(r[0]) && !IsWhiteSpace(r[|r| - 1]))
  }

  /** `s` is `r` with white space only before index `i` and after `i + |r|`. */
  predicate PaddedAt(s: string, r: string, i: int) {
    0 <= i && i + |r| <= |s| && s[i..i + |r|] == r
    && AllWhiteSpace(s[..i]) && AllWhiteSpace(s[i + |r|..])
  }

  /** Number of white-space characters at the start of `s`. */
  function LeadingSpace(s: string): (n: nat)
    ensures n <= |s|
    ensures AllWhiteSpace(s[..n])
    ensures n < |s| ==> !IsWhiteSpace(s[n])
  {
    if s == [] || !IsWhiteSpace(s[0]) then 0
    else
      var n := 1 + LeadingSpace(s[1..]);
      assert s[..n] == [s[0]] + s[1..][..n - 1];
      n
  }

  /** Index after which `s` holds only white space. */
  function TrailingStart(s: string): (n: nat)
    ensures n <= |s|
    ensures AllWhiteSpace(s[n..])
    ensures 0 < n ==> !IsWhiteSpace(s[n - 1])
  {
    if s == [] || !IsWhiteSpace(s[|s| - 1]) then |s|
    else
      var n := TrailingStart(s[..|s| - 1]);
      assert s[n..] == s[..|s| - 1][n..] + [s[|s| - 1]];
      n
  }

  /** Rust's `str::trim`: `s` without leading and trailing white space. */
  function Trim(s: string): (r: string)
    ensures Trimmed(r)
    ensures PaddedAt(s, r, LeadingSpace(s))
  {
    var i := LeadingSpace(s);
    if i == |s| then
      assert s[..i] == s;
      []
    else
      var j := TrailingStart(s);
      assert i < j;
      assert PaddedAt(s, s[i..j], i);
      s[i..j]
  }

  /** Trimming recovers the text inside any white-space padding. */
  lemma {:induction false} TrimPadded(lead: string, r: string, trail: string)
    requires AllWhiteSpace(lead) && AllWhiteSpace(trail) && Trimmed(r)
    ensures Trim(lead + r + trail) == r
  {
    var s := lead + r + trail;
    var i := LeadingSpace(s);
    if r == [] {
      assert AllWhiteSpace(s) by {
        forall k | 0 <= k < |s| ensures IsWhiteSpace(s[k]) {
          if k < |lead| { assert s[k] == lead[k]; } else { assert s[k] == trail[k - |lead|]; }
        }
      }
      assert i == |s|;
    } else {
      assert s[|lead|] == r[0];
      assert i == |lead| by {
        assert s[..|lead|] == lead;
        assert !IsWhiteSpace(s[|lead|]);
      }
      var j := TrailingStart(s);
      var e := |lead| + |r|;
      assert s[e - 1] == r[|r| - 1];
      assert j == e by {
        assert s[e..] == trail;
        assert !IsWhiteSpace(s[e - 1]);
      }
      assert s[i..j] == r;
    }
  }
}

=== FILE: wrappers.dfy ===
/** Option and Result datatypes used throughout the model, both usable with `:-`. */
module Wrappers {

  /** An optional value: `None` is Rust's `None`, `Some(v)` is `Some(v)`. */
  datatype Option<+T> = None | Some(value: T) {

    predicate IsFailure() {
      None?
    }

    function PropagateFailure<U>(): Option<U>
      requires None?
    {
      None
    }

    function Extract(): T
      requires Some?
    {
      value
    }

    /** The contained value, or `default` when there is none (Rust's `unwrap_or`). */
    function GetOr(default: T): T {
      match this
      case Some(v) => v
      case None => default
    }
  }

  /** The outcome of an operation that can fail with an error of type `E`. */
  datatype Result<+T, +E> = Success(value: T) | Failure(error: E) {

    predicate IsFailure() {
      Failure?
    }

    function PropagateFailure<U>(): Result<U, E>
      requires Failure?
    {
      Failure(error)
    }

    function Extract(): T
      requires Success?
    {
      value
    }

    /** The success value, or `default` on failure (Rust's `unwrap_or`). */
    function GetOr(default: T): T {
      match this
      case Success(v) => v
      case Failure(_) => default
    }
  }
}
